=== FILE: README.md ===
# tezos-matrix-mon: the sync stream and the ping/pong round

`tezos-matrix-mon` is a liveness probe for a Matrix homeserver. Each tick of
`MatrixMonitor.start` logs two identities in, an *initiator* and a
*responder*. The initiator reuses the room of the last successful round or
creates a direct chat inviting the responder, then sends a signed random
ping into it. The responder joins on invites, answers the first message from
the initiator with a counter-signed pong, and the round succeeds when both
sides resolve. Both sides read their events from `MatrixClient.events()`,
a long-poll loop over the `/sync` endpoint of the Matrix Client-Server API
r0. It flattens each reply into one ordered list, tags room events with
their room id, and drops `event_id`s already seen in a seen-map that the
monitor keeps per role across rounds.

The Dafny project models this core:

| file | module | what it models |
|---|---|---|
| `wrappers.dfy` | `Wrappers` | `Option` |
| `matrix_types.dfy` | `MatrixTypes` | events and the `/sync` reply (types.ts) |
| `query_string.dfy` | `QueryString` | `buildOptions`, with a reader for the string it builds |
| `tx_ids.dfy` | `TxIds` | the `txID` getter and its counter |
| `sync_schedule.dfy` | `SyncSchedule` | the order in which one reply is flattened, with each element's position (`Origin`) |
| `dedup.dfy` | `Dedup` | `isUnique` and the filter it drives, including a lazily pulled prefix (`Pull`) |
| `sync_stream.dfy` | `SyncStream` | one poll as a pure step, the loop as a fold over replies, the `since` cursor |
| `handshake.dfy` | `Handshake` | `initiatorFunc` and `responderFunc` over a finite event list |
| `monitor.dfy` | `Monitor` | one round of `start`, the probe loop and what carries over between rounds |

The outside world is passed in as data:

- The server is a `Server`: which requests succeed, and the `room_id` that
  `createRoom` returns.
- Signing and verification are the two functions of a `Crypto`.
- The clock, the random nonce and the sync replies are plain parameters.
- A handler's promise becomes an `Outcome`: `Resolved`, `Rejected` or
  `Pending`. `Pending` means it is still waiting: on a peer whose login has
  not completed, or on the next reply of a stream that is still open.
- Each role's stream is the replies it received, followed either by an open
  `/sync` request or by one that fails (`Side.syncFails`). A failing request
  throws into the handler's loop, so the handler rejects, `Promise.all`
  rejects and the round fails (matrix-client.ts:105-112, 161;
  matrix-monitor.ts:69, 88, 132, 153-155).

### Notes on the code

- A failed round keeps the previous room: `this.room` is only assigned
  after `Promise.all` resolves (matrix-monitor.ts:152), and the catch clause
  does not touch it.
- The responder runs a single loop. While no room is carried it joins on
  *every* `m.room.member` invite event (matrix-monitor.ts:90-94), whoever the
  invite names and however many there are. It answers the peer's message in
  the same loop.
- The initiator does not compare the pong with its nonce. It only checks
  that the pong opens under the peer's key (matrix-monitor.ts:73-74).
- The peer is awaited in three places: by the initiator before `createRoom`
  when no room is carried (matrix-monitor.ts:52), and by both roles at each
  message event (matrix-monitor.ts:71, 96). A role whose peer never logs in
  stops at the first of these and waits there (`Pending`). The round still
  fails, because that peer's own handler rejects on its failed login.
- The responder signs the decoded signed ping again with its own key
  (matrix-monitor.ts:98-100). It replies into the `room_id` of the event it
  answers, not into a room of its own.

## Model

| member | source | states |
|---|---|---|
| TxIds.TxId | matrix-client.ts:143 | the id text `now-count`; `ReadTxId`, `ReadAllCounters` and `ReadAllDistinct` state what it promises |
| TxIds.ReadTxId | matrix-client.ts:141-144 | a read returns an id whose counter suffix is the current count, and advances the count by exactly one |
| TxIds.ReadAll | matrix-client.ts:141-144 | successive reads give one id per read |
| TxIds.ReadAllCounters | matrix-client.ts:141-144 | the i-th id of successive reads carries counter start + i, read back from its text |
| TxIds.ReadAllDistinct | matrix-client.ts:141-144 | ids read from one client are pairwise distinct whatever the clock says |
| TxIds.ParseNatToString | matrix-client.ts:143 | the decimal counter suffix reads back as the counter |
| QueryString.BuildOptions | matrix-client.ts:40-56 | `buildOptions`: a primitive is encoded as is; an object gives its `key=value` pairs joined by `&`. `KeyValuesCharacterised`, `BuildOptionsParses`, `BuildOptionsOrderFree` and `BuildOptionsEmpty` state what the result holds |
| QueryString.SortFields | matrix-client.ts:46 | the keys are reordered, never lost or duplicated (same multiset of entries) |
| QueryString.SortFieldsSorted | matrix-client.ts:46 | the reordered entries are in strictly increasing key order |
| QueryString.SortedUnique | matrix-client.ts:46 | two key-sorted entry lists with the same entries are equal, so the sort result does not depend on insertion order |
| QueryString.BuildOptionsOrderFree | matrix-client.ts:46 | two objects with the same entries in different insertion order give the same query string |
| QueryString.KeyValuesCharacterised | matrix-client.ts:46-54 | keys come out in sorted order; under each key stand exactly its non-`undefined` values in array order; a key not in the object has no pair |
| QueryString.KeyValuesSorted | matrix-client.ts:46 | the pairs' keys are non-decreasing in the string order |
| QueryString.KeyValuesOfField | matrix-client.ts:47-53 | under one key stand exactly that field's defined values, one pair per array element, in array order |
| QueryString.KeyValuesUnderKey | matrix-client.ts:47-53 | the same for every key of the object |
| QueryString.KeyValuesAbsent | matrix-client.ts:46-53 | no pair carries a key the object does not have |
| QueryString.PairsSortedFacts | matrix-client.ts:46-54 | on key-sorted entries, the pairs are grouped by key in order and each group holds that key's defined values |
| QueryString.PairsSingle | matrix-client.ts:48-52 | a single value gives one pair, or none when it is `undefined` |
| QueryString.BuildOptionsParses | matrix-client.ts:51-55 | round trip: splitting the result at `&` and each part at its first `=` gives back the encoded pairs in order, given an encoder that escapes `&` and `=` |
| QueryString.BuildOptionsEmpty | matrix-client.ts:45-55 | the query string is empty exactly when no option has a defined value |
| QueryString.SplitJoin | matrix-client.ts:55 | splitting a `&`-join of non-empty parts without `&` gives the parts back |
| Dedup.Filter | matrix-client.ts:176-211 | the loops that yield a slot unchecked or only when `isUnique` accepts it, threading the seen-map; `FilterIsFirstOccurrences`, `KeptOnce`, `FilterSeen` and `FilterKeepsOrder` characterise it |
| Dedup.Pull | matrix-client.ts:158-214 | the generator's state once its consumer has taken `n` events; `PullIsPrefix`, `PullRecords` and `PullRecordsExactly` characterise it |
| Dedup.IsUnique | matrix-client.ts:146-155 | an absent id or seen-map is unique and records nothing; otherwise unique exactly when not yet recorded, and the id is recorded either way |
| Dedup.IsUniqueOnlyOnce | matrix-client.ts:150-154 | once an id is accepted, every later call with it is refused, whatever calls come in between, and the seen-map still holds it |
| Dedup.Replay | matrix-client.ts:146-155 | a series of calls keeps the presence or absence of the seen-map |
| Dedup.ReplayGrows | matrix-client.ts:153 | the seen-map only ever grows |
| Dedup.FilterIsFirstOccurrences | matrix-client.ts:176-211 | the threaded filter keeps exactly what a stateless rule keeps: exempt slots, and checked slots whose id was neither seen before nor carried by an earlier checked slot |
| Dedup.KeptOnce | matrix-client.ts:176-211 | a checked id is yielded once if it was new, never if it was already recorded |
| Dedup.ExemptAlwaysKept | matrix-client.ts:164-211 | top-level, room account-data, ephemeral and id-less events are never filtered: they come out exactly as they went in |
| Dedup.NoSeenMapKeepsAll | matrix-client.ts:147-148 | without a seen-map every event is yielded |
| Dedup.FilterSeen | matrix-client.ts:146-155 | the seen-map ends as the old ids plus every checked id in the input, and stays absent when absent |
| Dedup.FilterConcat | matrix-client.ts:158-213 | filtering two stretches in turn, handing the seen-map on, is filtering them together |
| Dedup.FilterKeepsOrder | matrix-client.ts:176-211 | the filter only drops slots and keeps their order |
| Dedup.FilterUnchecked | matrix-client.ts:164-170 | a stretch with no checked slot passes unchanged and leaves the seen-map alone |
| Dedup.PullIsPrefix | matrix-client.ts:158-214 | a consumer that stops after n events has seen the first n events of the whole stream; the seen-map then lies between the initial one and the whole filter's, and equals the latter once everything is pulled |
| Dedup.PullRecordsExactly | matrix-client.ts:158-214 | the generator is lazy: after n pulled events the seen-map is the initial one plus exactly the ids of the checked events pulled, so no later id is recorded yet |
| Dedup.PullRecords | matrix-client.ts:153 | every pulled checked event with an id is recorded in the seen-map |
| Dedup.DrainedChangesNothing | matrix-client.ts:146-155 | a stretch that yields nothing leaves the seen-map as it was |
| SyncSchedule.Schedule | matrix-client.ts:164-212 | one reply flattened: top level, invites, joins, leaves; `ScheduleExact` characterises it |
| SyncSchedule.Tag | matrix-client.ts:180 | a room event gets the enclosing room's key as `room_id`; with no key the event is unchanged; only `room_id` ever changes |
| SyncSchedule.ScheduleExact | matrix-client.ts:164-212 | the flattened reply lists every event of the reply exactly once, in the stream order (top level, invites, joins, leaves; rooms in entry order; sections in loop order; array order), each tagged with its room key |
| SyncSchedule.TopSlotsExact | matrix-client.ts:164-170 | the top-level part lists account data, to-device and presence events exactly, in order |
| SyncSchedule.GroupPartExact | matrix-client.ts:176-212 | the part of one room group lists exactly that group's events, in order |
| SyncSchedule.GroupSlotsExact | matrix-client.ts:177-196 | all rooms of a group, room after room, each event exactly once |
| SyncSchedule.BlockSlotsExact | matrix-client.ts:188-195 | one room: account data, ephemeral, state, then timeline, each event exactly once |
| SyncStream.PollTimeout | matrix-client.ts:158 | an explicit timeout wins; otherwise a missing or zero `pollTimeout` falls back to 30000 |
| SyncStream.RequestQuery | matrix-client.ts:161 | the `{ timeout, since }` query object of a `/sync` request; `RequestQueryPairs` and `RequestQueryText` state what goes on the wire |
| SyncStream.RequestQueryPairs | matrix-client.ts:161 | the first request's query holds only `timeout`; later ones hold `since`, then `timeout` |
| SyncStream.RequestQueryText | matrix-client.ts:159-161 | the exact query text of a `/sync` request, without and with a cursor |
| SyncStream.Poll | matrix-client.ts:161-212 | one poll takes `next_batch` as the cursor and only grows the seen-map |
| SyncStream.PollWithoutRooms | matrix-client.ts:164-174 | a reply without `rooms` yields exactly its top-level events and changes no seen-map |
| SyncStream.PollOrder | matrix-client.ts:164-212 | one poll yields reply events in stream order, each tagged with its room, and all the exempt ones |
| SyncStream.Run | matrix-client.ts:159-162 | the cursor after the replies is the last reply's `next_batch`, and is absent before the first |
| SyncStream.RunIsFilter | matrix-client.ts:158-214 | polling reply by reply is filtering all replies at once with one seen-map |
| SyncStream.StreamDedup | matrix-client.ts:158-214 | across replies a checked id is yielded at most once, and the seen-map ends holding the old ids plus all checked ids received |
| SyncStream.RequestsUpTo | matrix-client.ts:159-162 | the k-th request carries no cursor when k is 0, else the `next_batch` of reply k-1 |
| SyncStream.EventsLoop | matrix-client.ts:158-214 | the loop issues one more request than replies, the first without cursor and each later one with the previous `next_batch`, and yields the fold's events |
| Handshake.FirstStop | matrix-monitor.ts:69-77 | finds the first message from the peer: no earlier event stops the loop |
| Handshake.Ping | matrix-monitor.ts:61-66 | the ping: the signed nonce sent into the room with the client's first transaction id |
| Handshake.AwaitPong | matrix-monitor.ts:69-78 | the wait for the pong; `InitiatorStopsAtFirstPong` and `InitiatorHonest` state its behaviour through `Initiator` |
| Handshake.Initiator | matrix-monitor.ts:38-79 | fails at once when login fails; a carried room is used and no room is created; the only room created invites exactly the peer as a trusted private direct chat; exactly one ping, into the room, sent before any event is pulled; the result is the room, and only with a known peer; with a known peer and no carried room the first request is that `createRoom`, and once the room is known the last request is the ping; a refused `createRoom` or ping rejects with that request, so it resolves or pulls events only after all its requests were accepted; it waits only on an unknown peer or an open stream |
| Handshake.InitiatorStopsAtFirstPong | matrix-monitor.ts:69-78 | after the ping the initiator stops at the first message from the peer and resolves exactly when its signature opens, else rejects; with no such message it pulls everything, then rejects if the stream fails and waits if it is open |
| Handshake.FirstStopAt | matrix-monitor.ts:69-71 | any message from the peer with none before it is where the loop stops |
| Handshake.InitiatorHonest | matrix-monitor.ts:38-79 | with a server that accepts everything, the initiator resolves with its room at the first message from the peer whose signature opens, having pulled exactly up to it |
| Handshake.PongNotMatchedToPing | matrix-monitor.ts:61-78 | the outcome and the events pulled do not depend on the nonce signed |
| Handshake.Pong | matrix-monitor.ts:98-104 | the pong: the ping's signed body signed again with the responder's key, sent into the ping's room |
| Handshake.ResponderStep | matrix-monitor.ts:89-107 | one loop body: join on an invite while no room is carried; on the peer's verified message reply once into its room and stop, resolving exactly when the reply is accepted; a refused join or reply stops it rejecting with that request; it goes on only after accepted requests and resolves only on an accepted reply |
| Handshake.Respond | matrix-monitor.ts:88-108 | the loop pulls at most the events given |
| Handshake.RespondStops | matrix-monitor.ts:88-108 | the loop stops at the first message from the peer (or a failed join); otherwise it pulls everything, then rejects if the stream fails and waits if it is open |
| Handshake.RespondJoinsFirst | matrix-monitor.ts:90-94 | every request but the last is a join |
| Handshake.RespondRefused | matrix-monitor.ts:88-107 | a join or reply the server refuses ends the responder's loop, rejecting with that request |
| Handshake.RespondResolves | matrix-monitor.ts:96-106 | it resolves only after verifying the message it stopped at and replying to it as its last request |
| Handshake.RespondHonest | matrix-monitor.ts:88-106 | with a server that accepts everything, the loop joins what it is invited to and resolves at the first message from the peer whose signature opens, having pulled exactly up to it |
| Handshake.RespondJoins | matrix-monitor.ts:90-94 | with a carried room nothing is joined; otherwise one join per invite event pulled, in stream order, whoever the invite names |
| Handshake.Responder | matrix-monitor.ts:81-109 | fails at once when login fails; at most one reply, as its last request; when it resolves, the reply is the counter-signed first message from the peer, sent into that message's room; a refused join or reply rejects it with that request, so it resolves only when all its requests were accepted; it waits only on an unknown peer or an open stream |
| Monitor.SeenAfter | matrix-monitor.ts:133-148 | a role's seen-map after the round grows only by ids the replies carried and records every id the handler pulled and nothing after it: it is the old seen-map plus exactly the pulled checked ids; a full pull gives the stream's own seen-map |
| Monitor.Decide | matrix-monitor.ts:131-155 | the round succeeds exactly when both handlers resolve, with the initiator's room; it fails on any rejection; it times out only with a timer; it hangs exactly when there is no timer, no rejection and a handler that has not resolved |
| Monitor.PlayRound | matrix-monitor.ts:111-162 | the room becomes the initiator's result on success and is kept as it was otherwise; a set room stays set; the seen-maps only grow; a failed login fails the round, and the other role never resolves for lack of a peer; any request the server refuses fails the round, in particular a refused `createRoom` when no room is carried; a round hangs only without a timer and with a role still waiting on an open stream, so a failing `/sync` never hangs it |
| Monitor.HonestRound | matrix-monitor.ts:38-155 | with signatures that open under their keys, a server that accepts everything and both logins succeeding, a round whose streams carry the ping and the pong as sent, each as the first message from that side, succeeds with the carried or created room |
| Monitor.Probe | matrix-monitor.ts:117-161 | one round per tick, and only the last round may hang, after which no round follows |
| Monitor.ProbeKeepsState | matrix-monitor.ts:117-161 | over the whole loop the seen-maps grow, a set room stays set, and a changed room is the room of some successful round |
| Monitor.CarryOver | matrix-monitor.ts:45-94 | while a room is carried, as `PlayRound` ensures after every success, a round creates no room and joins no room, and its success keeps that room |
| Monitor.NoRedelivery | matrix-monitor.ts:133-148 | a checked event a role pulled in one round is never yielded to that role again in the next round |

## Left out

- The HTTP layer (`HTTPMatrixClient.request`, headers, URL assembly,
  `HTTPError`, matrix-client.ts:58-117) is network I/O. A request becomes
  "accepted or not" through `Server.accepts`.
- Building the login request (matrix-client.ts:14-36) is left out: it uses
  hashing, signing, `Date.now` and URL parsing. Login is modelled as
  succeeding or failing.
- Signing, opening and hex coding are the opaque functions of `Crypto`.
  `randombytes_buf` is the `nonce` parameter. A missing or non-hex body is
  folded into a failed verification.
- The message content's constant `msgtype: "m.text"` (matrix-monitor.ts:65, 103) is not part of `SendMessage`. Nothing in the handshake reads it back.
- `new Date().getTime()` in `txID` is the `now` parameter. The template literal's
  number formatting is modelled as plain decimal digits.
- `encodeURIComponent`, `String` and `JSON.stringify` are the opaque `enc`.
  A value comes already rendered to text.
- Dedup.IsUnique: `id in this.opt.seen` on a `{}` literal also finds
  names inherited from `Object.prototype`, such as `constructor`,
  `toString` and `__proto__`. The source refuses such an id the first time
  it sees it; the model treats every id as unrecorded until it is recorded.
  Matrix event ids start with `$`, so they never collide with those names.
- TxIds.ReadTxId: the counter is an unbounded natural number. `txcnt` is a
  JavaScript number, and `txcnt++` stops changing it at 2^53.
- TxIds.ReadAllDistinct: holds in the source only for the first 2^53 reads
  of one client, because the counter is a JavaScript number.
- Key sorting compares characters. JavaScript compares UTF-16 code units;
  the two differ only for characters outside the Basic Multilingual Plane.
- The `Canceller`, `Promise.all` scheduling and `setTimeout` are not
  modelled. They are reduced to the round rule in `Monitor.Decide`:
  - a rejection cancels the round;
  - otherwise, a handler still waiting times the round out when a timer is
    set, and hangs it when none is.
- `Canceller` itself is not part of this model.
- `tick` (util.ts) is the sequence of round environments given to
  `Monitor.Probe`. Its timing is not modelled.
- Durations and logging are not modelled.
- Monitor.PlayRound: a `/sync` request cancelled by the timer is not a
  separate case. The timer is the round rule in `Monitor.Decide`.
- Handshake.Respond: its contract states only how many events are pulled.
  What the loop does is stated by `RespondStops`, `RespondJoinsFirst`,
  `RespondResolves` and `RespondJoins`.
- matrix-mon.ts is left out. It is an older copy of the handshake built on
  `AbortSignal`, and its logic is covered by matrix-monitor.ts.
- monitor.ts (flag parsing and the entry point) is left out.

=== FILE: dedup.dfy ===
/** Deduplication of the flattened stream by `event_id`
    (`MatrixClient.isUnique`, matrix-client.ts). The seen-map is threaded
    as a value: `None` when the client was built without one. */
module Dedup {
  import opened Wrappers
  import opened MatrixTypes
  import opened SyncSchedule

  /** The ids recorded so far; only keys matter in the source's record. */
  type Seen = Option<set<string>>

  datatype Check = Check(unique: bool, seen: Seen)

  /** `isUnique(id)`: an absent id or an absent seen-map is always unique and
      records nothing; otherwise an id is unique exactly when it was not
      recorded, and it is recorded either way. */
  function IsUnique(seen: Seen, id: Option<string>): (r: Check)
    ensures r.unique <==> id.None? || seen.None? || id.value !in seen.value
    ensures id.None? || seen.None? ==> r.seen == seen
    ensures seen.Some? && id.Some? ==> r.seen == Some(seen.value + {id.value})
  {
    if id.None? || seen.None? then Check(true, seen)
    else if id.value in seen.value then
      assert seen.value + {id.value} == seen.value;
      Check(false, seen)
    else Check(true, Some(seen.value + {id.value}))
  }

  /** Once an id has been accepted, every later call with it is refused and
      changes nothing. */
  lemma IsUniqueOnlyOnce(seen: Seen, id: Option<string>, later: seq<Option<string>>)
    requires seen.Some? && id.Some?
    ensures !IsUnique(Replay(IsUnique(seen, id).seen, later), id).unique
    ensures Replay(IsUnique(seen, id).seen, later).value >= seen.value + {id.value}
  {
    ReplayGrows(IsUnique(seen, id).seen, later);
  }

  /** The seen-map after a series of `isUnique` calls. */
  function Replay(seen: Seen, ids: seq<Option<string>>): (r: Seen)
    ensures seen.Some? <==> r.Some?
    decreases |ids|
  {
    if ids == [] then seen else Replay(IsUnique(seen, ids[0]).seen, ids[1..])
  }

  lemma {:induction false} ReplayGrows(seen: Seen, ids: seq<Option<string>>)
    requires seen.Some?
    ensures seen.value <= Replay(seen, ids).value
    decreases |ids|
  {
    if ids != [] {
      ReplayGrows(IsUnique(seen, ids[0]).seen, ids[1..]);
    }
  }

  // ---------------------------------------------------------------------
  // Filtering a flattened list of slots.

  datatype Filtered = Filtered(kept: seq<Slot>, seen: Seen)

  /** The source's loops: unchecked slots are yielded, checked slots only
      when `isUnique` accepts their id, threading the seen-map. */
  function Filter(seen: Seen, xs: seq<Slot>): Filtered
    decreases |xs|
  {
    if xs == [] then Filtered([], seen)
    else if !Checked(xs[0]) then
      var rest := Filter(seen, xs[1..]);
      Filtered([xs[0]] + rest.kept, rest.seen)
    else
      var c := IsUnique(seen, xs[0].event.eventId);
      var rest := Filter(c.seen, xs[1..]);
      Filtered(if c.unique then [xs[0]] + rest.kept else rest.kept, rest.seen)
  }

  /** The ids of the checked slots of `xs`. */
  function CheckedIds(xs: seq<Slot>): set<string>
    decreases |xs|
  {
    if xs == [] then {}
    else if Checked(xs[0]) && xs[0].event.eventId.Some? then {xs[0].event.eventId.value} + CheckedIds(xs[1..])
    else CheckedIds(xs[1..])
  }

  /** Slots the filter never looks at twice: unchecked ones and checked ones without an id. */
  predicate Exempt(x: Slot) {
    !Checked(x) || x.event.eventId.None?
  }

  /** Reference rule, stated without any threaded state: a slot is kept when
      it is exempt, when there is no seen-map, or when its id was neither
      recorded beforehand nor carried by an earlier checked slot. */
  predicate KeptAfter(seen: Seen, earlier: seq<Slot>, x: Slot) {
    Exempt(x) || seen.None? || (x.event.eventId.value !in seen.value && x.event.eventId.value !in CheckedIds(earlier))
  }

  function FirstOccurrences(seen: Seen, xs: seq<Slot>): seq<Slot>
    decreases |xs|
  {
    if xs == [] then []
    else
      var pre := xs[..|xs| - 1];
      FirstOccurrences(seen, pre) + (if KeptAfter(seen, pre, xs[|xs| - 1]) then [xs[|xs| - 1]] else [])
  }

  /** The elements of `xs` that satisfy `p`, in order. */
  function Where(xs: seq<Slot>, p: Slot -> bool): (r: seq<Slot>)
    ensures |r| <= |xs|
    decreases |xs|
  {
    if xs == [] then [] else (if p(xs[0]) then [xs[0]] else []) + Where(xs[1..], p)
  }

  /** Number of checked slots carrying id `v`. */
  function CountId(xs: seq<Slot>, v: string): nat {
    |Where(xs, x => Checked(x) && x.event.eventId == Some(v))|
  }

  lemma {:induction false} WhereConcat(a: seq<Slot>, b: seq<Slot>, p: Slot -> bool)
    ensures Where(a + b, p) == Where(a, p) + Where(b, p)
    decreases |a|
  {
    if a == [] {
      assert a + b == b;
    } else {
      var h := if p(a[0]) then [a[0]] else [];
      assert (a + b)[0] == a[0];
      assert (a + b)[1..] == a[1..] + b;
      assert Where(a + b, p) == h + Where(a[1..] + b, p);
      WhereConcat(a[1..], b, p);
      assert Where(a + b, p) == h + (Where(a[1..], p) + Where(b, p));
      assert h + (Where(a[1..], p) + Where(b, p)) == (h + Where(a[1..], p)) + Where(b, p);
    }
  }

  lemma {:induction false} CheckedIdsConcat(a: seq<Slot>, b: seq<Slot>)
    ensures CheckedIds(a + b) == CheckedIds(a) + CheckedIds(b)
    decreases |a|
  {
    if a != [] {
      assert (a + b)[1..] == a[1..] + b;
      CheckedIdsConcat(a[1..], b);
    } else {
      assert a + b == b;
    }
  }

  /** Filtering a concatenation is filtering the parts in turn, handing the
      seen-map from the first to the second. */
  lemma {:induction false} FilterConcat(seen: Seen, a: seq<Slot>, b: seq<Slot>)
    ensures Filter(seen, a + b).kept == Filter(seen, a).kept + Filter(Filter(seen, a).seen, b).kept
    ensures Filter(seen, a + b).seen == Filter(Filter(seen, a).seen, b).seen
    decreases |a|
  {
    if a == [] {
      assert a + b == b;
    } else {
      var x := a[0];
      var ab := a + b;
      assert ab[0] == x;
      assert ab[1..] == a[1..] + b;
      var s1 := if Checked(x) then IsUnique(seen, x.event.eventId).seen else seen;
      var keep := !Checked(x) || IsUnique(seen, x.event.eventId).unique;
      FilterConcat(s1, a[1..], b);
      var ra := Filter(s1, a[1..]);
      assert Filter(seen, a) == Filtered(if keep then [x] + ra.kept else ra.kept, ra.seen);
      var rab := Filter(s1, a[1..] + b);
      assert Filter(seen, ab) == Filtered(if keep then [x] + rab.kept else rab.kept, rab.seen);
    }
  }

  /** The seen-map ends up holding exactly the earlier ids plus every id of a
      checked slot; without a seen-map nothing is recorded. */
  lemma {:induction false} FilterSeen(seen: Seen, xs: seq<Slot>)
    ensures seen.None? ==> Filter(seen, xs).seen.None?
    ensures seen.Some? ==> Filter(seen, xs).seen == Some(seen.value + CheckedIds(xs))
    decreases |xs|
  {
    if xs != [] {
      var x := xs[0];
      if !Checked(x) {
        FilterSeen(seen, xs[1..]);
      } else {
        var c := IsUnique(seen, x.event.eventId);
        FilterSeen(c.seen, xs[1..]);
        if seen.Some? && x.event.eventId.Some? {
          assert CheckedIds(xs) == {x.event.eventId.value} + CheckedIds(xs[1..]);
          assert c.seen.value + CheckedIds(xs[1..]) == seen.value + CheckedIds(xs);
        }
      }
    } else if seen.Some? {
      assert seen.value + CheckedIds(xs) == seen.value;
    }
  }

  /** The threaded filter keeps exactly the slots the reference rule keeps. */
  lemma {:induction false} FilterIsFirstOccurrences(seen: Seen, xs: seq<Slot>)
    ensures Filter(seen, xs).kept == FirstOccurrences(seen, xs)
    decreases |xs|
  {
    if xs != [] {
      var pre := xs[..|xs| - 1];
      var x := xs[|xs| - 1];
      assert xs == pre + [x];
      FilterConcat(seen, pre, [x]);
      FilterIsFirstOccurrences(seen, pre);
      FilterSeen(seen, pre);
      var s' := Filter(seen, pre).seen;
      assert Filter(s', [x]).kept == (if KeptAfter(seen, pre, x) then [x] else []) by {
        assert [x][1..] == [];
      }
    }
  }

  /** Dedup: an id recorded beforehand is never yielded from a checked slot,
      and any other id of a checked slot is yielded exactly once, however
      often it recurs. */
  lemma {:induction false} KeptOnce(seen: set<string>, xs: seq<Slot>, v: string)
    ensures CountId(Filter(Some(seen), xs).kept, v) == if v in CheckedIds(xs) && v !in seen then 1 else 0
    decreases |xs|
  {
    FilterIsFirstOccurrences(Some(seen), xs);
    if xs != [] {
      var pre := xs[..|xs| - 1];
      var x := xs[|xs| - 1];
      assert xs == pre + [x];
      KeptOnce(seen, pre, v);
      FilterIsFirstOccurrences(Some(seen), pre);
      var tail := if KeptAfter(Some(seen), pre, x) then [x] else [];
      WhereConcat(FirstOccurrences(Some(seen), pre), tail, x => Checked(x) && x.event.eventId == Some(v));
      CheckedIdsConcat(pre, [x]);
      assert CheckedIds([x]) == if Checked(x) && x.event.eventId.Some? then {x.event.eventId.value} else {} by {
        assert [x][1..] == [];
      }
    }
  }

  /** Exempt slots (top-level and room account data, ephemeral events, and
      invite-state events without `event_id`) all pass, in order. */
  lemma {:induction false} ExemptAlwaysKept(seen: Seen, xs: seq<Slot>)
    ensures Where(Filter(seen, xs).kept, Exempt) == Where(xs, Exempt)
    decreases |xs|
  {
    FilterIsFirstOccurrences(seen, xs);
    if xs != [] {
      var pre := xs[..|xs| - 1];
      var x := xs[|xs| - 1];
      assert xs == pre + [x];
      ExemptAlwaysKept(seen, pre);
      FilterIsFirstOccurrences(seen, pre);
      var tail := if KeptAfter(seen, pre, x) then [x] else [];
      WhereConcat(FirstOccurrences(seen, pre), tail, Exempt);
      WhereConcat(pre, [x], Exempt);
    }
  }

  /** Without a seen-map every slot is yielded. */
  lemma {:induction false} NoSeenMapKeepsAll(xs: seq<Slot>)
    ensures Filter(None, xs).kept == xs
    decreases |xs|
  {
    if xs != [] {
      NoSeenMapKeepsAll(xs[1..]);
    }
  }

  /** A stretch without checked slots passes unchanged. */
  lemma {:induction false} FilterUnchecked(seen: Seen, xs: seq<Slot>)
    requires forall i :: 0 <= i < |xs| ==> !Checked(xs[i])
    ensures Filter(seen, xs) == Filtered(xs, seen)
    decreases |xs|
  {
    if xs != [] {
      FilterUnchecked(seen, xs[1..]);
    }
  }

  /** The filter only drops slots: whatever it keeps comes from its input,
      in the input's order. */
  lemma {:induction false} FilterKeepsOrder(seen: Seen, xs: seq<Slot>)
    ensures forall x :: x in Filter(seen, xs).kept ==> x in xs
    ensures Sorted(xs) ==> Sorted(Filter(seen, xs).kept)
    decreases |xs|
  {
    if xs != [] {
      var s1 := if Checked(xs[0]) then IsUnique(seen, xs[0].event.eventId).seen else seen;
      FilterKeepsOrder(s1, xs[1..]);
      var rest := Filter(s1, xs[1..]).kept;
      if Sorted(xs) {
        assert Sorted(xs[1..]);
        forall y | y in rest ensures Before(xs[0].origin, y.origin) {
          var j :| 0 <= j < |xs[1..]| && xs[1..][j] == y;
          assert xs[j + 1] == y;
        }
        var r := [xs[0]] + rest;
        forall i, j | 0 <= i < j < |r| ensures Before(r[i].origin, r[j].origin) {
          if i == 0 {
            assert r[j] == rest[j - 1];
            assert r[j] in rest;
          } else {
            assert r[i] == rest[i - 1] && r[j] == rest[j - 1];
          }
        }
      }
    }
  }

  lemma {:induction false} WhereMembers(xs: seq<Slot>, p: Slot -> bool, x: Slot)
    ensures x in Where(xs, p) <==> x in xs && p(x)
    decreases |xs|
  {
    if xs != [] {
      WhereMembers(xs[1..], p, x);
      assert xs == [xs[0]] + xs[1..];
    }
  }

  // ---------------------------------------------------------------------
  // Lazy consumption: the generator only runs until it has yielded as many
  // events as the consumer asked for.

  /** State of the filter once it has yielded `n` slots (or run out). */
  function Pull(seen: Seen, xs: seq<Slot>, n: nat): Filtered
    decreases |xs|
  {
    if n == 0 || xs == [] then Filtered([], seen)
    else if !Checked(xs[0]) then
      var rest := Pull(seen, xs[1..], n - 1);
      Filtered([xs[0]] + rest.kept, rest.seen)
    else
      var c := IsUnique(seen, xs[0].event.eventId);
      if c.unique then
        var rest := Pull(c.seen, xs[1..], n - 1);
        Filtered([xs[0]] + rest.kept, rest.seen)
      else Pull(c.seen, xs[1..], n)
  }

  /** The first `n` events pulled are the first `n` of the whole filter, and
      the seen-map then lies between the initial one and the final one; once
      everything has been pulled it is the final one. */
  lemma {:induction false} PullIsPrefix(seen: Seen, xs: seq<Slot>, n: nat)
    ensures var all := Filter(seen, xs).kept;
      Pull(seen, xs, n).kept == all[..if n < |all| then n else |all|]
    ensures seen.Some? ==>
      && Pull(seen, xs, n).seen.Some? && Filter(seen, xs).seen.Some?
      && seen.value <= Pull(seen, xs, n).seen.value <= Filter(seen, xs).seen.value
    ensures seen.None? ==> Pull(seen, xs, n).seen.None?
    ensures n >= |Filter(seen, xs).kept| ==> Pull(seen, xs, n).seen == Filter(seen, xs).seen
    decreases |xs|
  {
    FilterSeen(seen, xs);
    if n == 0 && xs != [] {
      if Filter(seen, xs).kept == [] {
        DrainedChangesNothing(seen, xs);
      }
    } else if xs != [] {
      if !Checked(xs[0]) {
        PullIsPrefix(seen, xs[1..], n - 1);
      } else {
        var c := IsUnique(seen, xs[0].event.eventId);
        FilterSeen(c.seen, xs[1..]);
        if c.unique {
          PullIsPrefix(c.seen, xs[1..], n - 1);
        } else {
          PullIsPrefix(c.seen, xs[1..], n);
        }
      }
    }
  }

  /** Every checked slot with an id that has been pulled is recorded in the
      seen-map by then, so no later filter with that seen-map yields it. */
  lemma {:induction false} PullRecords(seen: set<string>, xs: seq<Slot>, n: nat)
    ensures Pull(Some(seen), xs, n).seen.Some?
    ensures forall x <- Pull(Some(seen), xs, n).kept :: Checked(x) && x.event.eventId.Some? ==>
      x.event.eventId.value in Pull(Some(seen), xs, n).seen.value
    decreases |xs|
  {
    PullIsPrefix(Some(seen), xs, n);
    if n > 0 && xs != [] {
      if !Checked(xs[0]) {
        PullRecords(seen, xs[1..], n - 1);
      } else {
        var c := IsUnique(Some(seen), xs[0].event.eventId);
        var m := if c.unique then n - 1 else n;
        PullRecords(c.seen.value, xs[1..], m);
        PullIsPrefix(c.seen, xs[1..], m);
      }
    }
  }

  /** The generator is lazy: once `n` events are pulled, the seen-map holds
      what it held before plus exactly the ids of the checked events pulled.
      Nothing after the `n`-th event has been looked at, so an id that only
      comes later is not recorded yet. */
  lemma {:induction false} PullRecordsExactly(seen: set<string>, xs: seq<Slot>, n: nat)
    ensures Pull(Some(seen), xs, n).seen == Some(seen + CheckedIds(Pull(Some(seen), xs, n).kept))
    decreases |xs|
  {
    if n > 0 && xs != [] {
      var x := xs[0];
      var own := if Checked(x) && x.event.eventId.Some? then {x.event.eventId.value} else {};
      assert CheckedIds([x]) == own by {
        assert [x][1..] == [];
      }
      if !Checked(x) {
        var rest := Pull(Some(seen), xs[1..], n - 1);
        PullRecordsExactly(seen, xs[1..], n - 1);
        CheckedIdsConcat([x], rest.kept);
        assert Pull(Some(seen), xs, n) == Filtered([x] + rest.kept, rest.seen);
      } else {
        var c := IsUnique(Some(seen), x.event.eventId);
        if c.unique {
          var rest := Pull(c.seen, xs[1..], n - 1);
          PullRecordsExactly(c.seen.value, xs[1..], n - 1);
          CheckedIdsConcat([x], rest.kept);
          assert c.seen.value == seen + own;
          assert Pull(Some(seen), xs, n) == Filtered([x] + rest.kept, rest.seen);
          assert (seen + own) + CheckedIds(rest.kept) == seen + (own + CheckedIds(rest.kept));
        } else {
          PullRecordsExactly(c.seen.value, xs[1..], n);
          assert c.seen.value == seen;
        }
      }
    } else {
      assert seen + CheckedIds([]) == seen;
    }
  }

  /** A stretch that yields nothing leaves the seen-map as it was: it holds
      only checked slots whose ids are already recorded. */
  lemma {:induction false} DrainedChangesNothing(seen: Seen, xs: seq<Slot>)
    requires Filter(seen, xs).kept == []
    ensures Filter(seen, xs).seen == seen
    decreases |xs|
  {
    if xs != [] {
      DrainedChangesNothing(IsUnique(seen, xs[0].event.eventId).seen, xs[1..]);
    }
  }
}

=== FILE: handshake.dfy ===
/** The two roles of one ping/pong round (`MatrixMonitor.initiatorFunc` and
    `MatrixMonitor.responderFunc`, matrix-monitor.ts). Each role reads a
    finite list of stream events and produces the requests it issued, its
    outcome and how many events it pulled from the stream. After the events
    the stream either stays open, waiting on the next `/sync` reply, or, when
    `syncFails` holds, throws because that request failed. The server's
    answers and the signature scheme are parameters. */
module Handshake {
  import opened Wrappers
  import opened MatrixTypes
  import TxIds

  /** The other side as it becomes known once its login completes. */
  datatype Peer = Peer(id: string, pub: string)

  datatype KeyPair = KeyPair(publicKey: string, privateKey: string)

  /** The requests a role sends to the server besides login and sync. */
  datatype Action =
    | CreateRoom(invite: seq<string>, preset: string, isDirect: bool)
    | JoinRoom(room: Option<string>)
    | SendMessage(room: Option<string>, eventType: string, txnId: string, body: string)

  /** Why a role's promise rejects. `BadSignature` covers a missing body, a
      body that is not hex and a signature that does not open; `SyncFailed`
      is a `/sync` request of the stream that failed. */
  datatype Failure = LoginFailed | RequestFailed(request: Action) | BadSignature | SyncFailed

  /** A role's promise: resolved, rejected, or still waiting (on the peer's
      login, or on the next reply of a stream that is still open). */
  datatype Outcome<T> = Resolved(value: T) | Rejected(failure: Failure) | Pending

  /** What a role is left with once it has pulled every event: the failing
      request rejects it; an open stream keeps it waiting. */
  function Drained<T>(syncFails: bool): Outcome<T> {
    if syncFails then Rejected(SyncFailed) else Pending
  }

  /** What the server does with a request: whether it answers with success,
      and the `room_id` a successful `createRoom` returns. */
  datatype Server = Server(accepts: Action -> bool, createdRoom: string)

  /** The signature scheme over hex bodies: `verifies(body, pub)` is
      "hex-decodes and opens under `pub`", `sign(body, priv)` is the hex of
      the signed hex-decoded body. */
  datatype Crypto = Crypto(verifies: (string, string) -> bool, sign: (string, string) -> string)

  datatype Trace<T> = Trace(actions: seq<Action>, outcome: Outcome<T>, consumed: nat)

  const TrustedPrivateChat: string := "trusted_private_chat"

  /** The transaction id of the first `txID` read of a fresh client. */
  function FirstTxnId(now: int): string {
    TxIds.TxId(now, 0)
  }

  predicate IsMessage(ev: Event) {
    ev.kind == MessageEventType
  }

  predicate IsInvite(ev: Event) {
    ev.kind == MemberEventType && ev.content.membership == Some("invite")
  }

  /** An event at which a role's loop stops: a message, whose sender is
      compared with the peer once the peer is known. While the peer is not
      known the loop is stuck awaiting it at the first message. */
  predicate Stops(ev: Event, peer: Option<Peer>) {
    IsMessage(ev) && (peer.None? || ev.sender == Some(peer.value.id))
  }

  predicate NoStop(events: seq<Event>, peer: Option<Peer>, lo: nat, hi: nat)
    requires lo <= hi <= |events|
  {
    forall j :: lo <= j < hi ==> !Stops(events[j], peer)
  }

  /** The signature on a received message checks out under the peer's key. */
  predicate Verified(crypto: Crypto, ev: Event, peer: Peer) {
    ev.content.body.Some? && crypto.verifies(ev.content.body.value, peer.pub)
  }

  /** The first stopping event at or after `i`. */
  function FirstStop(events: seq<Event>, peer: Option<Peer>, i: nat): (r: Option<nat>)
    requires i <= |events|
    ensures r.None? ==> NoStop(events, peer, i, |events|)
    ensures r.Some? ==> i <= r.value < |events| && Stops(events[r.value], peer) && NoStop(events, peer, i, r.value)
    decreases |events| - i
  {
    if i == |events| then None
    else if Stops(events[i], peer) then Some(i)
    else FirstStop(events, peer, i + 1)
  }

  // ---------------------------------------------------------------------
  // Initiator.

  /** The ping: a signed random nonce, sent into the room with the client's
      first transaction id. */
  function Ping(room: string, crypto: Crypto, key: KeyPair, nonce: string, now: int): Action {
    SendMessage(Some(room), MessageEventType, FirstTxnId(now), crypto.sign(nonce, key.privateKey))
  }

  /** After the ping: pull events until the first message from the peer and
      check its signature; the room is the result. A stream that runs dry
      without such a message leaves the initiator as `Drained` says. */
  function AwaitPong(room: string, peer: Option<Peer>, crypto: Crypto, events: seq<Event>, syncFails: bool): (r: Trace<string>)
  {
    match FirstStop(events, peer, 0)
    case None => Trace([], Drained(syncFails), |events|)
    case Some(k) =>
      if peer.None? then Trace([], Pending, k + 1)
      else if Verified(crypto, events[k], peer.value) then Trace([], Resolved(room), k + 1)
      else Trace([], Rejected(BadSignature), k + 1)
  }

  /** `initiatorFunc`: log in, take the carried room or create one with the
      peer invited, send one ping, await the pong.

      A carried room is used as is: no room is created, the ping goes into
      it and it is the result. Without one, the only room created invites
      exactly the peer as a trusted private direct chat, and the ping goes
      into the room the server returned. There is exactly one ping and it
      is sent before any event is pulled: whenever the initiator pulled an
      event or resolved, the accepted ping is its last request and its only
      message. A request the server refuses rejects the initiator with that
      request, so it resolves or pulls events only after every request was
      accepted. Once logged in with a known peer and no carried room it
      always asks for the room first, and once it has a room it always
      sends the ping. It waits only on a peer that is not known yet or on a
      stream that is still open. */
  function Initiator(loggedIn: bool, carried: Option<string>, peer: Option<Peer>, server: Server,
                     crypto: Crypto, key: KeyPair, nonce: string, now: int, events: seq<Event>, syncFails: bool): (r: Trace<string>)
    ensures r.consumed <= |events|
    ensures !loggedIn ==> r == Trace([], Rejected(LoginFailed), 0)
    ensures r.outcome.Resolved? ==> peer.Some? && r.outcome.value == carried.GetOr(server.createdRoom)
    ensures r.outcome.Pending? ==> peer.None? || !syncFails
    ensures forall a <- r.actions :: !server.accepts(a) ==> r.outcome == Rejected(RequestFailed(a))
    ensures r.outcome.Resolved? || r.consumed > 0 ==> forall a <- r.actions :: server.accepts(a)
    ensures loggedIn && carried.None? && peer.Some? ==>
      r.actions != [] && r.actions[0] == CreateRoom([peer.value.id], TrustedPrivateChat, true)
    ensures loggedIn && (carried.Some? || (peer.Some? && server.accepts(CreateRoom([peer.value.id], TrustedPrivateChat, true)))) ==>
      r.actions != [] && r.actions[|r.actions| - 1] == Ping(carried.GetOr(server.createdRoom), crypto, key, nonce, now)
    ensures carried.Some? ==> forall a <- r.actions :: !a.CreateRoom?
    ensures forall a <- r.actions :: a.CreateRoom? ==>
      carried.None? && peer.Some? && a == CreateRoom([peer.value.id], TrustedPrivateChat, true)
    ensures forall a <- r.actions :: a.SendMessage? ==> a.room == Some(carried.GetOr(server.createdRoom))
    ensures |r.actions| <= 2
    ensures r.consumed > 0 || r.outcome.Resolved? ==>
      && r.actions != []
      && r.actions[|r.actions| - 1] == Ping(carried.GetOr(server.createdRoom), crypto, key, nonce, now)
      && server.accepts(r.actions[|r.actions| - 1])
      && forall j :: 0 <= j < |r.actions| - 1 ==> !r.actions[j].SendMessage?
  {
    if !loggedIn then Trace([], Rejected(LoginFailed), 0)
    else
      var created :=
        if carried.Some? then Trace([], Resolved(carried.value), 0)
        else if peer.None? then Trace([], Pending, 0)
        else
          var create := CreateRoom([peer.value.id], TrustedPrivateChat, true);
          if server.accepts(create) then Trace([create], Resolved(server.createdRoom), 0)
          else Trace([create], Rejected(RequestFailed(create)), 0);
      if !created.outcome.Resolved? then created
      else
        var room := created.outcome.value;
        var ping := Ping(room, crypto, key, nonce, now);
        if !server.accepts(ping) then Trace(created.actions + [ping], Rejected(RequestFailed(ping)), 0)
        else
          var pong := AwaitPong(room, peer, crypto, events, syncFails);
          Trace(created.actions + [ping], pong.outcome, pong.consumed)
  }

  /** Once the ping is out, the initiator ignores every event before the
      first message from the peer, stops right there, and resolves exactly
      when that message's signature opens under the peer's key; with no such
      message it has pulled everything and is still waiting. */
  lemma InitiatorStopsAtFirstPong(carried: Option<string>, peer: Peer, server: Server,
                                  crypto: Crypto, key: KeyPair, nonce: string, now: int, events: seq<Event>, syncFails: bool)
    requires carried.None? ==> server.accepts(CreateRoom([peer.id], TrustedPrivateChat, true))
    requires server.accepts(Ping(carried.GetOr(server.createdRoom), crypto, key, nonce, now))
    ensures var r := Initiator(true, carried, Some(peer), server, crypto, key, nonce, now, events, syncFails);
      if NoStop(events, Some(peer), 0, |events|) then
        r.outcome == Drained(syncFails) && r.consumed == |events|
      else
        var k := r.consumed - 1;
        && 0 <= k < |events|
        && Stops(events[k], Some(peer)) && NoStop(events, Some(peer), 0, k)
        && (r.outcome.Resolved? <==> Verified(crypto, events[k], peer))
        && (!r.outcome.Resolved? ==> r.outcome == Rejected(BadSignature))
  {
    var r := Initiator(true, carried, Some(peer), server, crypto, key, nonce, now, events, syncFails);
    var f := FirstStop(events, Some(peer), 0);
    if f.Some? {
      assert !NoStop(events, Some(peer), 0, |events|) by {
        assert Stops(events[f.value], Some(peer));
      }
    }
  }

  /** The pong is never compared with the ping: what the initiator does with
      the events does not depend on the nonce it signed. */
  lemma PongNotMatchedToPing(loggedIn: bool, carried: Option<string>, peer: Option<Peer>, server: Server,
                             crypto: Crypto, key: KeyPair, nonce: string, nonce': string, now: int, events: seq<Event>, syncFails: bool)
    requires server.accepts(Ping(carried.GetOr(server.createdRoom), crypto, key, nonce, now))
    requires server.accepts(Ping(carried.GetOr(server.createdRoom), crypto, key, nonce', now))
    ensures var r := Initiator(loggedIn, carried, peer, server, crypto, key, nonce, now, events, syncFails);
      var r' := Initiator(loggedIn, carried, peer, server, crypto, key, nonce', now, events, syncFails);
      r.outcome == r'.outcome && r.consumed == r'.consumed
  {
  }

  // ---------------------------------------------------------------------
  // Responder.

  /** The pong: the ping's signed bytes signed again with the responder's
      key, sent into the room the ping came from. */
  function Pong(ping: Event, crypto: Crypto, key: KeyPair, now: int): Action
    requires ping.content.body.Some?
  {
    SendMessage(ping.roomId, MessageEventType, FirstTxnId(now), crypto.sign(ping.content.body.value, key.privateKey))
  }

  /** What the responder's loop body does with one event: go on to the
      next event after the requests it made, or stop with an outcome. */
  datatype Step = Continue(actions: seq<Action>) | Stop(actions: seq<Action>, outcome: Outcome<()>)

  /** The loop body: join on an invite while no room is carried over; on a
      message, await the peer, and if the message is the peer's, verify it
      and reply into its room: a verified message from the peer is always
      answered, and the loop resolves exactly when the reply is accepted. A
      refused join or reply stops the loop with that request's failure. */
  function ResponderStep(carried: Option<string>, peer: Option<Peer>, server: Server, crypto: Crypto,
                         key: KeyPair, now: int, ev: Event): (r: Step)
    ensures r.Continue? ==>
      !Stops(ev, peer) && r.actions == if carried.None? && IsInvite(ev) then [JoinRoom(ev.roomId)] else []
    ensures r.Continue? ==> forall a <- r.actions :: server.accepts(a)
    ensures forall a <- r.actions :: !server.accepts(a) ==> r == Stop([a], Rejected(RequestFailed(a)))
    ensures carried.None? && IsInvite(ev) && !server.accepts(JoinRoom(ev.roomId)) ==>
      r == Stop([JoinRoom(ev.roomId)], Rejected(RequestFailed(JoinRoom(ev.roomId))))
    ensures r.Stop? && !Stops(ev, peer) ==>
      carried.None? && IsInvite(ev) && !server.accepts(JoinRoom(ev.roomId))
      && r == Stop([JoinRoom(ev.roomId)], Rejected(RequestFailed(JoinRoom(ev.roomId))))
    ensures r.Stop? && Stops(ev, peer) ==> forall a <- r.actions :: a.SendMessage?
    ensures Stops(ev, peer) ==> r.Stop? && |r.actions| <= 1
    ensures r.Stop? && r.outcome.Pending? ==> peer.None?
    ensures peer.Some? && Stops(ev, peer) && Verified(crypto, ev, peer.value) ==>
      && r.actions == [Pong(ev, crypto, key, now)]
      && (r.Stop? && r.outcome.Resolved? <==> server.accepts(Pong(ev, crypto, key, now)))
    ensures r.Stop? && r.outcome.Resolved? ==>
      && peer.Some? && Stops(ev, peer) && Verified(crypto, ev, peer.value) && r.actions == [Pong(ev, crypto, key, now)]
      && server.accepts(Pong(ev, crypto, key, now))
  {
    if carried.None? && IsInvite(ev) then
      var join := JoinRoom(ev.roomId);
      if server.accepts(join) then Continue([join]) else Stop([join], Rejected(RequestFailed(join)))
    else if !IsMessage(ev) then Continue([])
    else if peer.None? then Stop([], Pending)
    else if ev.sender != Some(peer.value.id) then Continue([])
    else if !Verified(crypto, ev, peer.value) then Stop([], Rejected(BadSignature))
    else
      var pong := Pong(ev, crypto, key, now);
      if server.accepts(pong) then Stop([pong], Resolved(())) else Stop([pong], Rejected(RequestFailed(pong)))
  }

  /** The responder's loop from event `i` on. */
  function Respond(carried: Option<string>, peer: Option<Peer>, server: Server, crypto: Crypto,
                   key: KeyPair, now: int, events: seq<Event>, syncFails: bool, i: nat): (r: Trace<()>)
    requires i <= |events|
    ensures i <= r.consumed <= |events|
    decreases |events| - i
  {
    if i == |events| then Trace([], Drained(syncFails), |events|)
    else
      match ResponderStep(carried, peer, server, crypto, key, now, events[i])
      case Stop(acts, outcome) => Trace(acts, outcome, i + 1)
      case Continue(acts) =>
        var rest := Respond(carried, peer, server, crypto, key, now, events, syncFails, i + 1);
        Trace(acts + rest.actions, rest.outcome, rest.consumed)
  }

  lemma NoStopExtend(events: seq<Event>, peer: Option<Peer>, i: nat, hi: nat)
    requires i < hi <= |events| || i + 1 == hi <= |events|
    requires !Stops(events[i], peer) && NoStop(events, peer, i + 1, hi)
    ensures NoStop(events, peer, i, hi)
  {
  }

  /** The responder pulls events up to the first message from the peer (or
      the first message at all while the peer is unknown) and stops there,
      unless a join fails first; with no such message it pulls everything
      and keeps waiting, which is the only way it waits once the peer is
      known. */
  lemma {:induction false} RespondStops(carried: Option<string>, peer: Option<Peer>, server: Server, crypto: Crypto,
                                        key: KeyPair, now: int, events: seq<Event>, syncFails: bool, i: nat)
    requires i <= |events|
    ensures var r := Respond(carried, peer, server, crypto, key, now, events, syncFails, i);
      || (r.consumed == |events| && r.outcome == Drained(syncFails) && NoStop(events, peer, i, |events|))
      || (&& i < r.consumed && NoStop(events, peer, i, r.consumed - 1)
          && (|| (Stops(events[r.consumed - 1], peer) && (r.outcome.Pending? ==> peer.None?))
              || r.outcome == Rejected(RequestFailed(JoinRoom(events[r.consumed - 1].roomId)))))
    decreases |events| - i
  {
    if i < |events| {
      var step := ResponderStep(carried, peer, server, crypto, key, now, events[i]);
      if step.Continue? {
        var rest := Respond(carried, peer, server, crypto, key, now, events, syncFails, i + 1);
        RespondStops(carried, peer, server, crypto, key, now, events, syncFails, i + 1);
        if rest.consumed == |events| && rest.outcome == Drained(syncFails) && NoStop(events, peer, i + 1, |events|) {
          NoStopExtend(events, peer, i, |events|);
        } else {
          NoStopExtend(events, peer, i, rest.consumed - 1);
        }
      }
    }
  }

  /** Every request but the last is a join. */
  lemma {:induction false} RespondJoinsFirst(carried: Option<string>, peer: Option<Peer>, server: Server, crypto: Crypto,
                                             key: KeyPair, now: int, events: seq<Event>, syncFails: bool, i: nat)
    requires i <= |events|
    ensures forall j :: 0 <= j < |Respond(carried, peer, server, crypto, key, now, events, syncFails, i).actions| - 1 ==>
      Respond(carried, peer, server, crypto, key, now, events, syncFails, i).actions[j].JoinRoom?
    decreases |events| - i
  {
    if i < |events| {
      var step := ResponderStep(carried, peer, server, crypto, key, now, events[i]);
      if step.Continue? {
        var rest := Respond(carried, peer, server, crypto, key, now, events, syncFails, i + 1);
        RespondJoinsFirst(carried, peer, server, crypto, key, now, events, syncFails, i + 1);
        var acts := step.actions + rest.actions;
        assert Respond(carried, peer, server, crypto, key, now, events, syncFails, i).actions == acts;
        forall j | 0 <= j < |acts| - 1 ensures acts[j].JoinRoom? {
          if j >= |step.actions| {
            assert acts[j] == rest.actions[j - |step.actions|];
          } else {
            assert step.actions == [JoinRoom(events[i].roomId)];
            assert acts[j] == step.actions[j];
          }
        }
      }
    }
  }

  /** A request the server refuses ends the loop: the responder rejects with
      that request's failure. */
  lemma {:induction false} RespondRefused(carried: Option<string>, peer: Option<Peer>, server: Server, crypto: Crypto,
                                          key: KeyPair, now: int, events: seq<Event>, syncFails: bool, i: nat)
    requires i <= |events|
    ensures var r := Respond(carried, peer, server, crypto, key, now, events, syncFails, i);
      forall a <- r.actions :: !server.accepts(a) ==> r.outcome == Rejected(RequestFailed(a))
    decreases |events| - i
  {
    if i < |events| {
      var step := ResponderStep(carried, peer, server, crypto, key, now, events[i]);
      if step.Continue? {
        var rest := Respond(carried, peer, server, crypto, key, now, events, syncFails, i + 1);
        RespondRefused(carried, peer, server, crypto, key, now, events, syncFails, i + 1);
        assert Respond(carried, peer, server, crypto, key, now, events, syncFails, i)
          == Trace(step.actions + rest.actions, rest.outcome, rest.consumed);
      } else {
        assert Respond(carried, peer, server, crypto, key, now, events, syncFails, i) == Trace(step.actions, step.outcome, i + 1);
      }
    }
  }

  /** `r`, the loop's trace from event `i` on, resolves only at a message
      from the peer whose signature opens, answered by its last request. */
  predicate ResolvedByReply(r: Trace<()>, peer: Option<Peer>, crypto: Crypto, key: KeyPair, now: int,
                            events: seq<Event>, i: nat) {
    r.outcome.Resolved? ==>
      && i < r.consumed <= |events| && peer.Some?
      && Stops(events[r.consumed - 1], peer) && Verified(crypto, events[r.consumed - 1], peer.value)
      && r.actions != [] && r.actions[|r.actions| - 1] == Pong(events[r.consumed - 1], crypto, key, now)
  }

  lemma ResolvedByReplyExtend(head: seq<Action>, rest: Trace<()>, peer: Option<Peer>, crypto: Crypto, key: KeyPair,
                              now: int, events: seq<Event>, i: nat)
    requires ResolvedByReply(rest, peer, crypto, key, now, events, i + 1)
    ensures ResolvedByReply(Trace(head + rest.actions, rest.outcome, rest.consumed), peer, crypto, key, now, events, i)
  {
    if rest.outcome.Resolved? {
      var acts := head + rest.actions;
      assert acts[|acts| - 1] == rest.actions[|rest.actions| - 1];
    }
  }

  /** The responder resolves only after verifying the message it stopped at
      and replying to it, as its last request. */
  lemma {:induction false} RespondResolves(carried: Option<string>, peer: Option<Peer>, server: Server, crypto: Crypto,
                                           key: KeyPair, now: int, events: seq<Event>, syncFails: bool, i: nat)
    requires i <= |events|
    ensures ResolvedByReply(Respond(carried, peer, server, crypto, key, now, events, syncFails, i), peer, crypto, key, now, events, i)
    decreases |events| - i
  {
    if i < |events| {
      var step := ResponderStep(carried, peer, server, crypto, key, now, events[i]);
      if step.Continue? {
        var rest := Respond(carried, peer, server, crypto, key, now, events, syncFails, i + 1);
        RespondResolves(carried, peer, server, crypto, key, now, events, syncFails, i + 1);
        ResolvedByReplyExtend(step.actions, rest, peer, crypto, key, now, events, i);
        assert Respond(carried, peer, server, crypto, key, now, events, syncFails, i)
          == Trace(step.actions + rest.actions, rest.outcome, rest.consumed);
      } else {
        assert Respond(carried, peer, server, crypto, key, now, events, syncFails, i) == Trace(step.actions, step.outcome, i + 1);
      }
    }
  }

  /** `responderFunc`: log in, then run the loop over the stream. It
      replies at most once: its only message is its last request, and when
      it resolves that message answers the first message from the peer,
      into the room that message came from. */
  function Responder(loggedIn: bool, carried: Option<string>, peer: Option<Peer>, server: Server,
                     crypto: Crypto, key: KeyPair, now: int, events: seq<Event>, syncFails: bool): (r: Trace<()>)
    ensures r.consumed <= |events|
    ensures !loggedIn ==> r == Trace([], Rejected(LoginFailed), 0)
    ensures forall j :: 0 <= j < |r.actions| - 1 ==> !r.actions[j].SendMessage?
    ensures r.outcome.Pending? ==> peer.None? || !syncFails
    ensures forall a <- r.actions :: !server.accepts(a) ==> r.outcome == Rejected(RequestFailed(a))
    ensures r.outcome.Resolved? ==> forall a <- r.actions :: server.accepts(a)
    ensures r.outcome.Resolved? ==>
      var k := r.consumed - 1;
      && 0 <= k < |events| && peer.Some?
      && IsMessage(events[k]) && events[k].sender == Some(peer.value.id)
      && NoStop(events, peer, 0, k)
      && Verified(crypto, events[k], peer.value) && r.actions != []
      && r.actions[|r.actions| - 1] == Pong(events[k], crypto, key, now)
      && r.actions[|r.actions| - 1].room == events[k].roomId
  {
    if !loggedIn then Trace([], Rejected(LoginFailed), 0)
    else
      RespondStops(carried, peer, server, crypto, key, now, events, syncFails, 0);
      RespondResolves(carried, peer, server, crypto, key, now, events, syncFails, 0);
      RespondJoinsFirst(carried, peer, server, crypto, key, now, events, syncFails, 0);
      RespondRefused(carried, peer, server, crypto, key, now, events, syncFails, 0);
      Respond(carried, peer, server, crypto, key, now, events, syncFails, 0)
  }

  /** The join requests invites cause, in order. */
  function Invites(events: seq<Event>): seq<Action> {
    if events == [] then []
    else (if IsInvite(events[0]) then [JoinRoom(events[0].roomId)] else []) + Invites(events[1..])
  }

  function Joins(actions: seq<Action>): seq<Action> {
    if actions == [] then []
    else (if actions[0].JoinRoom? then [actions[0]] else []) + Joins(actions[1..])
  }

  lemma JoinsCons(a: Action, rest: seq<Action>)
    ensures Joins([a] + rest) == (if a.JoinRoom? then [a] else []) + Joins(rest)
  {
    assert ([a] + rest)[1..] == rest;
  }

  /** While a room is carried over the responder joins nothing; otherwise it
      joins every invited room among the events it pulled, once per invite
      event and in stream order, whatever the invite's target. */
  lemma {:induction false} RespondJoins(carried: Option<string>, peer: Option<Peer>, server: Server, crypto: Crypto,
                                        key: KeyPair, now: int, events: seq<Event>, syncFails: bool, i: nat)
    requires i <= |events|
    ensures var r := Respond(carried, peer, server, crypto, key, now, events, syncFails, i);
      Joins(r.actions) == if carried.Some? then [] else Invites(events[i..r.consumed])
    decreases |events| - i
  {
    var r := Respond(carried, peer, server, crypto, key, now, events, syncFails, i);
    var c := r.consumed;
    if i < |events| {
      var ev := events[i];
      var head := if IsInvite(ev) then [JoinRoom(ev.roomId)] else [];
      assert events[i..c][0] == ev && events[i..c][1..] == events[i + 1..c];
      assert Invites(events[i..c]) == head + Invites(events[i + 1..c]);
      var step := ResponderStep(carried, peer, server, crypto, key, now, ev);
      if step.Continue? {
        var rest := Respond(carried, peer, server, crypto, key, now, events, syncFails, i + 1);
        RespondJoins(carried, peer, server, crypto, key, now, events, syncFails, i + 1);
        JoinsAppend(step.actions, rest.actions);
      } else {
        assert c == i + 1 && events[i + 1..c] == [];
        assert r.actions == step.actions;
        JoinsOfStop(step, ev, peer);
      }
    } else {
      assert events[i..c] == [];
    }
  }

  /** The joins of a one-event prefix followed by more requests. */
  lemma JoinsAppend(head: seq<Action>, rest: seq<Action>)
    requires head == [] || (|head| == 1 && head[0].JoinRoom?)
    ensures Joins(head + rest) == head + Joins(rest)
  {
    if head != [] {
      JoinsCons(head[0], rest);
    } else {
      assert head + rest == rest;
    }
  }

  lemma JoinsOfStop(step: Step, ev: Event, peer: Option<Peer>)
    requires step.Stop?
    requires Stops(ev, peer) ==> forall a <- step.actions :: a.SendMessage?
    requires Stops(ev, peer) ==> |step.actions| <= 1
    requires !Stops(ev, peer) ==> step.actions == [JoinRoom(ev.roomId)]
    ensures Joins(step.actions) == if Stops(ev, peer) then [] else [JoinRoom(ev.roomId)]
  {
    if step.actions != [] {
      assert step.actions[1..] == [];
      assert step.actions[0] in step.actions;
      JoinsCons(step.actions[0], []);
      assert step.actions == [step.actions[0]] + [];
    }
  }

  // ---------------------------------------------------------------------
  // Honest runs.

  /** Any stop with no stop before it is the first stop. */
  lemma FirstStopAt(events: seq<Event>, peer: Option<Peer>, i: nat, k: nat)
    requires i <= k < |events| && Stops(events[k], peer) && NoStop(events, peer, i, k)
    ensures FirstStop(events, peer, i) == Some(k)
  {
  }

  /** With a server that accepts every request, the initiator resolves with
      its room at the first message from the peer, provided that message's
      signature opens, whatever the stream holds before it. */
  lemma InitiatorHonest(carried: Option<string>, peer: Peer, server: Server, crypto: Crypto, key: KeyPair,
                        nonce: string, now: int, events: seq<Event>, syncFails: bool, k: nat)
    requires forall a :: server.accepts(a)
    requires k < |events| && Stops(events[k], Some(peer)) && NoStop(events, Some(peer), 0, k)
    requires Verified(crypto, events[k], peer)
    ensures var r := Initiator(true, carried, Some(peer), server, crypto, key, nonce, now, events, syncFails);
      r.outcome == Resolved(carried.GetOr(server.createdRoom)) && r.consumed == k + 1
  {
    FirstStopAt(events, Some(peer), 0, k);
    assert server.accepts(CreateRoom([peer.id], TrustedPrivateChat, true));
    assert server.accepts(Ping(carried.GetOr(server.createdRoom), crypto, key, nonce, now));
  }

  /** With a server that accepts every request, the responder joins what it
      is invited to, answers the first message from the peer, provided its
      signature opens, and resolves right there. */
  lemma {:induction false} RespondHonest(carried: Option<string>, peer: Peer, server: Server, crypto: Crypto,
                                         key: KeyPair, now: int, events: seq<Event>, syncFails: bool, i: nat, k: nat)
    requires forall a :: server.accepts(a)
    requires i <= k < |events| && Stops(events[k], Some(peer)) && NoStop(events, Some(peer), i, k)
    requires Verified(crypto, events[k], peer)
    ensures var r := Respond(carried, Some(peer), server, crypto, key, now, events, syncFails, i);
      r.outcome == Resolved(()) && r.consumed == k + 1
    decreases k - i
  {
    var step := ResponderStep(carried, Some(peer), server, crypto, key, now, events[i]);
    if i == k {
      assert server.accepts(Pong(events[k], crypto, key, now));
    } else {
      assert !Stops(events[i], Some(peer));
      assert server.accepts(JoinRoom(events[i].roomId));
      assert step.Continue?;
      RespondHonest(carried, peer, server, crypto, key, now, events, syncFails, i + 1, k);
    }
  }
}

=== FILE: matrix_types.dfy ===
/** Shapes of the events and of the `/sync` reply of the Matrix Client-Server
    API r0, as far as the event stream and the handshake look into them. */
module MatrixTypes {
  import opened Wrappers

  const MemberEventType: string := "m.room.member"
  const MessageEventType: string := "m.room.message"

  /** The two content fields the handshake reads: `membership` of a member
      event and `body` of a message event. Everything else is opaque. */
  datatype Content = Content(membership: Option<string>, body: Option<string>)

  /** One event. Room events carry `eventId` and `sender`; stripped invite-state
      events have no `eventId`; `roomId` is filled in while flattening. */
  datatype Event = Event(
    kind: string,
    content: Content,
    eventId: Option<string>,
    sender: Option<string>,
    roomId: Option<string>)

  /** A `{events: [...]}` block that may be missing altogether. */
  type Batch = Option<seq<Event>>

  /** `block?.events || []`: a missing block contributes no events. */
  function Events(b: Batch): seq<Event> {
    b.GetOr([])
  }

  datatype JoinedRoom = JoinedRoom(
    state: Batch, timeline: Batch, accountData: Batch, ephemeral: Batch)

  /** A room the user has left; the stream does not look at anything else. */
  datatype LeftRoom = LeftRoom(state: Batch, timeline: Batch, accountData: Batch)

  datatype InvitedRoom = InvitedRoom(inviteState: seq<Event>)

  /** A JSON object keyed by room id, in the order `Object.entries` lists it. */
  type RoomMap<T> = seq<(string, T)>

  datatype Rooms = Rooms(
    join: Option<RoomMap<JoinedRoom>>,
    invite: Option<RoomMap<InvitedRoom>>,
    leave: Option<RoomMap<LeftRoom>>)

  datatype SyncResponse = SyncResponse(
    nextBatch: string,
    rooms: Option<Rooms>,
    presence: Batch,
    accountData: Batch,
    toDevice: Batch)
}

=== FILE: monitor.dfy ===
/** One probe round and the state `MatrixMonitor` carries from round to
    round (`MatrixMonitor.start`, matrix-monitor.ts): the room of the last
    successful round and one seen-set per role, handed to each round's fresh
    clients. The two handlers run against their own sync streams; the round
    is decided by `Promise.all` over their outcomes. */
module Monitor {
  import opened Wrappers
  import opened MatrixTypes
  import opened SyncSchedule
  import opened Dedup
  import opened SyncStream
  import opened Handshake

  datatype Monitor = Monitor(room: Option<string>, initiatorSeen: set<string>, responderSeen: set<string>)

  /** A freshly constructed monitor: no room, nothing seen. */
  const Initial: Monitor := Monitor(None, {}, {})

  /** One role's side of the world in a round: the user id its login
      returned (`None` when login fails), its key pair, the sync replies its
      stream receives before the round ends, whether the `/sync` request
      after those replies fails (or stays open), and the clock at its
      `txID`. */
  datatype Side = Side(login: Option<string>, key: KeyPair, replies: seq<SyncResponse>, syncFails: bool, now: int)

  /** Everything outside the monitor during one round. `timeout` is
      `opt.timeout`, with 0 standing for an absent or zero option. */
  datatype RoundEnv = RoundEnv(
    initiator: Side, responder: Side, server: Server, crypto: Crypto, nonce: string, timeout: int)

  /** How a round ends: both handlers resolved; one rejected or the timer
      fired, so the canceller was fired; or neither, with no timer to end it. */
  datatype Verdict = Succeeded(room: string) | Failed(timedOut: bool) | Hung

  datatype Round = Round(verdict: Verdict, initiator: Trace<string>, responder: Trace<()>, next: Monitor)

  /** The peer a handler awaits: the other side's user id once its login
      resolves, with the other side's public key. */
  function PeerOf(other: Side): (p: Option<Peer>)
    ensures p.Some? <==> other.login.Some?
    ensures p.Some? ==> p.value == Peer(other.login.value, other.key.publicKey)
  {
    if other.login.Some? then Some(Peer(other.login.value, other.key.publicKey)) else None
  }

  /** The events a role's stream yields over the round's replies. */
  function StreamOf(seen: set<string>, side: Side): seq<Event> {
    Run(Some(seen), side.replies).events
  }

  /** The seen-set once a handler has pulled `pulled` events from its
      stream: it holds what it held before, only ids the replies carried,
      and every id among the pulled events, and nothing else: what comes
      after the last pulled event is not recorded. Pulling everything gives
      the stream's final seen-set. */
  function SeenAfter(seen: set<string>, side: Side, pulled: nat): (s: set<string>)
    ensures seen <= s <= seen + CheckedIds(AllSlots(side.replies))
    ensures forall x <- Pull(Some(seen), AllSlots(side.replies), pulled).kept ::
      Checked(x) && x.event.eventId.Some? ==> x.event.eventId.value in s
    ensures s == seen + CheckedIds(Pull(Some(seen), AllSlots(side.replies), pulled).kept)
    ensures pulled >= |StreamOf(seen, side)| ==> Some(s) == Run(Some(seen), side.replies).seen
  {
    var xs := AllSlots(side.replies);
    PullIsPrefix(Some(seen), xs, pulled);
    PullRecords(seen, xs, pulled);
    PullRecordsExactly(seen, xs, pulled);
    FilterSeen(Some(seen), xs);
    RunIsFilter(Some(seen), side.replies);
    Pull(Some(seen), xs, pulled).seen.GetOr(seen)
  }

  /** `Promise.all` with the catch clause and the optional timer. */
  function Decide(init: Outcome<string>, resp: Outcome<()>, timeout: int): (v: Verdict)
    ensures v.Succeeded? <==> init.Resolved? && resp.Resolved?
    ensures v.Succeeded? ==> v.room == init.value
    ensures v.Failed? && !v.timedOut <==> init.Rejected? || resp.Rejected?
    ensures v.Failed? && v.timedOut ==> timeout != 0
    ensures v.Hung? <==> timeout == 0 && !init.Rejected? && !resp.Rejected? && !(init.Resolved? && resp.Resolved?)
  {
    if init.Rejected? || resp.Rejected? then Failed(false)
    else if init.Resolved? && resp.Resolved? then Succeeded(init.value)
    else if timeout != 0 then Failed(true)
    else Hung
  }

  /** One round: both handlers run on the carried room and their own
      streams; the room becomes the initiator's result only when both
      resolve and is otherwise left as it was; each seen-set keeps what its
      stream recorded up to where its handler stopped. A request the server
      refuses fails the round. */
  function PlayRound(m: Monitor, env: RoundEnv): (r: Round)
    ensures r.verdict.Succeeded? ==> r.next.room == Some(r.verdict.room)
    ensures !r.verdict.Succeeded? ==> r.next.room == m.room
    ensures m.room.Some? ==> r.next.room.Some?
    ensures m.room.Some? && r.verdict.Succeeded? ==> r.next.room == m.room
    ensures m.initiatorSeen <= r.next.initiatorSeen && m.responderSeen <= r.next.responderSeen
    ensures env.initiator.login.None? || env.responder.login.None? ==> r.verdict == Failed(false)
    ensures env.responder.login.None? ==> !r.initiator.outcome.Resolved?
    ensures env.initiator.login.None? ==> !r.responder.outcome.Resolved?
    ensures (&& env.initiator.login.Some? && env.responder.login.Some? && m.room.None?
             && !env.server.accepts(CreateRoom([env.responder.login.value], TrustedPrivateChat, true))) ==>
      r.verdict == Failed(false)
    ensures forall a <- r.initiator.actions :: !env.server.accepts(a) ==> r.verdict == Failed(false)
    ensures forall a <- r.responder.actions :: !env.server.accepts(a) ==> r.verdict == Failed(false)
    ensures r.verdict.Hung? ==>
      && env.timeout == 0
      && ((r.initiator.outcome.Pending? && !env.initiator.syncFails)
          || (r.responder.outcome.Pending? && !env.responder.syncFails))
  {
    var i := env.initiator;
    var p := env.responder;
    var init := Initiator(i.login.Some?, m.room, PeerOf(p), env.server, env.crypto, i.key, env.nonce, i.now,
                          StreamOf(m.initiatorSeen, i), i.syncFails);
    var resp := Responder(p.login.Some?, m.room, PeerOf(i), env.server, env.crypto, p.key, p.now,
                          StreamOf(m.responderSeen, p), p.syncFails);
    var verdict := Decide(init.outcome, resp.outcome, env.timeout);
    var room := if verdict.Succeeded? then Some(verdict.room) else m.room;
    Round(verdict, init, resp,
          Monitor(room, SeenAfter(m.initiatorSeen, i, init.consumed), SeenAfter(m.responderSeen, p, resp.consumed)))
  }

  /** The probe loop: one round per tick until a round hangs, after which
      no tick is taken again. */
  function Probe(m: Monitor, envs: seq<RoundEnv>): (r: seq<Round>)
    ensures |r| <= |envs|
    ensures HungOnlyLast(r)
    ensures |r| < |envs| ==> r != [] && r[|r| - 1].verdict.Hung?
    decreases |envs|
  {
    if envs == [] then []
    else
      var first := PlayRound(m, envs[0]);
      if first.verdict.Hung? then [first]
      else
        var rest := Probe(first.next, envs[1..]);
        HungOnlyLastCons(first, rest);
        [first] + rest
  }

  /** No round but the last one hangs. */
  predicate HungOnlyLast(rounds: seq<Round>) {
    forall k :: 0 <= k < |rounds| - 1 ==> !rounds[k].verdict.Hung?
  }

  lemma HungOnlyLastCons(first: Round, rest: seq<Round>)
    requires !first.verdict.Hung? && HungOnlyLast(rest)
    ensures HungOnlyLast([first] + rest)
    ensures rest != [] ==> ([first] + rest)[|rest|] == rest[|rest| - 1]
  {
    var rs := [first] + rest;
    forall k | 0 <= k < |rs| - 1 ensures !rs[k].verdict.Hung? {
      if k > 0 {
        assert rs[k] == rest[k - 1];
      }
    }
  }

  /** The monitor after the rounds played so far. */
  function After(m: Monitor, rounds: seq<Round>): Monitor {
    if rounds == [] then m else rounds[|rounds| - 1].next
  }

  /** Across the probe loop the seen-sets only grow and a room, once set,
      stays set: it changes only to the room of a successful round. */
  lemma {:induction false} ProbeKeepsState(m: Monitor, envs: seq<RoundEnv>)
    ensures var last := After(m, Probe(m, envs));
      && m.initiatorSeen <= last.initiatorSeen && m.responderSeen <= last.responderSeen
      && (m.room.Some? ==> last.room.Some?)
      && (last.room != m.room ==> exists r <- Probe(m, envs) :: r.verdict.Succeeded? && last.room == Some(r.verdict.room))
    decreases |envs|
  {
    if envs != [] {
      var first := PlayRound(m, envs[0]);
      if !first.verdict.Hung? {
        var rest := Probe(first.next, envs[1..]);
        ProbeKeepsState(first.next, envs[1..]);
        assert Probe(m, envs) == [first] + rest;
        AfterCons(m, first, rest);
      }
    }
  }

  lemma AfterCons(m: Monitor, first: Round, rest: seq<Round>)
    ensures After(m, [first] + rest) == After(first.next, rest)
  {
    if rest != [] {
      assert ([first] + rest)[|rest|] == rest[|rest| - 1];
    }
  }

  /** Room carry-over: while a room is carried, which `PlayRound` ensures
      after every successful round, a round creates no room and joins no
      room, whatever its streams contain, and a success keeps that room. */
  lemma CarryOver(m: Monitor, env: RoundEnv)
    requires m.room.Some?
    ensures var r := PlayRound(m, env);
      && (forall a <- r.initiator.actions :: !a.CreateRoom?)
      && (forall a <- r.responder.actions :: !a.JoinRoom?)
      && (r.verdict.Succeeded? ==> r.verdict.room == m.room.value)
  {
    var p := env.responder;
    if p.login.Some? {
      RespondJoins(m.room, PeerOf(env.initiator), env.server, env.crypto, p.key, p.now,
                   StreamOf(m.responderSeen, p), p.syncFails, 0);
      var acts := PlayRound(m, env).responder.actions;
      forall a <- acts
        ensures !a.JoinRoom?
      {
        if a.JoinRoom? {
          JoinsHasJoin(acts, a);
        }
      }
    }
  }

  /** A join request in a list of requests shows up in its joins. */
  lemma {:induction false} JoinsHasJoin(actions: seq<Action>, a: Action)
    requires a in actions && a.JoinRoom?
    ensures Joins(actions) != []
    decreases |actions|
  {
    JoinsCons(actions[0], actions[1..]);
    assert actions == [actions[0]] + actions[1..];
    if actions[0] != a {
      JoinsHasJoin(actions[1..], a);
    }
  }

  /** An honest round succeeds. Signatures made with either role's key open
      under its public key, the server accepts every request and both logins
      succeed; the responder's stream carries the initiator's ping, as sent,
      as its first message from the initiator, and the initiator's stream
      carries the responder's pong to it, as sent, as its first message from
      the responder. Then the round succeeds with the carried room, or the
      created one when none is carried, whatever else the streams hold. */
  lemma HonestRound(m: Monitor, env: RoundEnv, k: nat, k': nat)
    requires forall x :: env.crypto.verifies(env.crypto.sign(x, env.initiator.key.privateKey), env.initiator.key.publicKey)
    requires forall x :: env.crypto.verifies(env.crypto.sign(x, env.responder.key.privateKey), env.responder.key.publicKey)
    requires forall a :: env.server.accepts(a)
    requires env.initiator.login.Some? && env.responder.login.Some?
    requires var ping := Ping(m.room.GetOr(env.server.createdRoom), env.crypto, env.initiator.key, env.nonce, env.initiator.now);
      var rs := StreamOf(m.responderSeen, env.responder);
      && k < |rs| && IsMessage(rs[k]) && rs[k].sender == env.initiator.login && rs[k].content.body == Some(ping.body)
      && NoStop(rs, PeerOf(env.initiator), 0, k)
    requires var rs := StreamOf(m.responderSeen, env.responder);
      var ins := StreamOf(m.initiatorSeen, env.initiator);
      && k' < |ins| && IsMessage(ins[k']) && ins[k'].sender == env.responder.login
      && ins[k'].content.body == Some(Pong(rs[k], env.crypto, env.responder.key, env.responder.now).body)
      && NoStop(ins, PeerOf(env.responder), 0, k')
    ensures PlayRound(m, env).verdict == Succeeded(m.room.GetOr(env.server.createdRoom))
  {
    var i := env.initiator;
    var p := env.responder;
    var rs := StreamOf(m.responderSeen, p);
    var ins := StreamOf(m.initiatorSeen, i);
    var ping := Ping(m.room.GetOr(env.server.createdRoom), env.crypto, i.key, env.nonce, i.now);
    assert Verified(env.crypto, rs[k], Peer(i.login.value, i.key.publicKey)) by {
      assert ping.body == env.crypto.sign(env.nonce, i.key.privateKey);
    }
    RespondHonest(m.room, Peer(i.login.value, i.key.publicKey), env.server, env.crypto, p.key, p.now, rs, p.syncFails, 0, k);
    assert Verified(env.crypto, ins[k'], Peer(p.login.value, p.key.publicKey)) by {
      assert Pong(rs[k], env.crypto, p.key, p.now).body == env.crypto.sign(rs[k].content.body.value, p.key.privateKey);
    }
    InitiatorHonest(m.room, Peer(p.login.value, p.key.publicKey), env.server, env.crypto, i.key, env.nonce, i.now,
                    ins, i.syncFails, k');
  }

  /** Dedup history outlives the round: an event a handler pulled in one
      round (a checked one, with an id) is never yielded to the same role
      again in the next round, whatever the next replies contain. */
  lemma NoRedelivery(m: Monitor, env: RoundEnv, env': RoundEnv, x: Slot)
    requires x.event.eventId.Some? && Checked(x)
    ensures var first := PlayRound(m, env);
      x in Pull(Some(m.initiatorSeen), AllSlots(env.initiator.replies), first.initiator.consumed).kept ==>
        CountId(Filter(Some(first.next.initiatorSeen), AllSlots(env'.initiator.replies)).kept, x.event.eventId.value) == 0
    ensures var first := PlayRound(m, env);
      x in Pull(Some(m.responderSeen), AllSlots(env.responder.replies), first.responder.consumed).kept ==>
        CountId(Filter(Some(first.next.responderSeen), AllSlots(env'.responder.replies)).kept, x.event.eventId.value) == 0
  {
    var first := PlayRound(m, env);
    KeptOnce(first.next.initiatorSeen, AllSlots(env'.initiator.replies), x.event.eventId.value);
    KeptOnce(first.next.responderSeen, AllSlots(env'.responder.replies), x.event.eventId.value);
  }
}

=== FILE: query_string.dfy ===
/** `buildOptions` (matrix-client.ts): the query-string serialiser used for
    every request. URI-encoding (`encodeURIComponent`, applied to `String(v)`
    or `JSON.stringify(v)`) is opaque and passed in as `enc`. */
module QueryString {

  /** One option value, already rendered to text by `String`/`JSON.stringify`. */
  datatype Value = Undefined | Defined(text: string)

  /** An option is a single value or an array of values (`Array.isArray`). */
  datatype Field = Single(value: Value) | Many(values: seq<Value>)

  /** The argument: a primitive (or `null`), or an object listed in insertion order. */
  datatype Query = Primitive(text: string) | Object(fields: seq<(string, Field)>)

  /** A JavaScript object never has the same key twice. */
  predicate DistinctKeys(fs: seq<(string, Field)>) {
    forall i, j :: 0 <= i < j < |fs| ==> fs[i].0 != fs[j].0
  }

  // ---------------------------------------------------------------------
  // The order `Array.prototype.sort` uses on strings: lexicographic on
  // characters, a proper prefix first.

  predicate Below(a: string, b: string)
    decreases |a|
  {
    |b| > 0 && (|a| == 0 || a[0] < b[0] || (a[0] == b[0] && Below(a[1..], b[1..])))
  }

  lemma BelowIrreflexive(a: string)
    ensures !Below(a, a)
    decreases |a|
  {
    if |a| > 0 { BelowIrreflexive(a[1..]); }
  }

  lemma BelowTransitive(a: string, b: string, c: string)
    requires Below(a, b) && Below(b, c)
    ensures Below(a, c)
    decreases |a|
  {
    if |a| > 0 && a[0] == b[0] && b[0] == c[0] {
      BelowTransitive(a[1..], b[1..], c[1..]);
    }
  }

  lemma BelowTotal(a: string, b: string)
    requires a != b
    ensures Below(a, b) || Below(b, a)
    decreases |a|
  {
    if |a| > 0 && |b| > 0 && a[0] == b[0] {
      assert a == [a[0]] + a[1..] && b == [b[0]] + b[1..];
      BelowTotal(a[1..], b[1..]);
    }
  }

  // ---------------------------------------------------------------------
  // Sorting the fields by key (the keys are distinct, so this is the same
  // as sorting `Object.keys` and looking each value up).

  predicate StrictlySorted(fs: seq<(string, Field)>) {
    forall i, j :: 0 <= i < j < |fs| ==> Below(fs[i].0, fs[j].0)
  }

  function InsertField(x: (string, Field), sorted: seq<(string, Field)>): (r: seq<(string, Field)>)
    ensures multiset(r) == multiset(sorted) + multiset{x}
    decreases |sorted|
  {
    if sorted == [] then [x]
    else if Below(x.0, sorted[0].0) then [x] + sorted
    else
      assert sorted == [sorted[0]] + sorted[1..];
      [sorted[0]] + InsertField(x, sorted[1..])
  }

  function SortFields(fs: seq<(string, Field)>): (r: seq<(string, Field)>)
    ensures multiset(r) == multiset(fs)
    decreases |fs|
  {
    if fs == [] then []
    else
      assert fs == [fs[0]] + fs[1..];
      InsertField(fs[0], SortFields(fs[1..]))
  }

  lemma {:induction false} InsertFieldSorted(x: (string, Field), sorted: seq<(string, Field)>)
    requires StrictlySorted(sorted)
    requires forall i :: 0 <= i < |sorted| ==> sorted[i].0 != x.0
    ensures StrictlySorted(InsertField(x, sorted))
    decreases |sorted|
  {
    if sorted != [] && !Below(x.0, sorted[0].0) {
      BelowTotal(x.0, sorted[0].0);
      InsertFieldSorted(x, sorted[1..]);
      var r := InsertField(x, sorted[1..]);
      forall j | 0 <= j < |r| ensures Below(sorted[0].0, r[j].0) {
        assert r[j] in multiset(r);
        assert r[j] == x || r[j] in multiset(sorted[1..]);
        if r[j] != x {
          var k :| 0 <= k < |sorted[1..]| && sorted[1..][k] == r[j];
          assert sorted[k + 1] == r[j];
        }
      }
      assert InsertField(x, sorted) == [sorted[0]] + r;
    } else if sorted != [] {
      forall j | 0 <= j < |sorted| ensures Below(x.0, sorted[j].0) {
        if j > 0 { BelowTransitive(x.0, sorted[0].0, sorted[j].0); }
      }
    }
  }

  /** The sorted fields are in strictly increasing key order. */
  lemma {:induction false} SortFieldsSorted(fs: seq<(string, Field)>)
    requires DistinctKeys(fs)
    ensures StrictlySorted(SortFields(fs))
    decreases |fs|
  {
    if fs != [] {
      var rest := fs[1..];
      assert DistinctKeys(rest);
      SortFieldsSorted(rest);
      var s := SortFields(rest);
      forall i | 0 <= i < |s| ensures s[i].0 != fs[0].0 {
        assert s[i] in multiset(rest);
        var k :| 0 <= k < |rest| && rest[k] == s[i];
        assert fs[k + 1] == s[i];
      }
      InsertFieldSorted(fs[0], s);
    }
  }

  lemma SortedHeadsAgree(a: seq<(string, Field)>, b: seq<(string, Field)>)
    requires StrictlySorted(a) && StrictlySorted(b)
    requires |a| > 0 && multiset(a) == multiset(b)
    ensures |b| > 0 && a[0] == b[0]
  {
    assert a[0] in multiset(b);
    var j :| 0 <= j < |b| && b[j] == a[0];
    assert b[0] in multiset(a);
    var i :| 0 <= i < |a| && a[i] == b[0];
    if j > 0 {
      BelowIrreflexive(a[0].0);
      if i > 0 {
        BelowTransitive(a[0].0, a[i].0, a[0].0);
      }
    }
  }

  /** Two key-sorted field lists with the same entries are the same list. */
  lemma {:induction false} SortedUnique(a: seq<(string, Field)>, b: seq<(string, Field)>)
    requires StrictlySorted(a) && StrictlySorted(b)
    requires multiset(a) == multiset(b)
    ensures a == b
    decreases |a|
  {
    if a == [] {
      assert |b| == |multiset(b)| == 0;
    } else {
      SortedHeadsAgree(a, b);
      assert a == [a[0]] + a[1..] && b == [b[0]] + b[1..];
      assert multiset(a[1..]) == multiset(a) - multiset{a[0]};
      assert multiset(b[1..]) == multiset(b) - multiset{b[0]};
      SortedUnique(a[1..], b[1..]);
    }
  }

  // ---------------------------------------------------------------------
  // The key/value pairs and their rendering.

  /** `Array.isArray(val) ? val : [val]`. */
  function Items(f: Field): seq<Value> {
    match f
    case Single(v) => [v]
    case Many(vs) => vs
  }

  /** The texts of the values that are not `undefined`, in order. */
  function DefinedTexts(vs: seq<Value>): seq<string>
    decreases |vs|
  {
    if vs == [] then []
    else (if vs[0].Defined? then [vs[0].text] else []) + DefinedTexts(vs[1..])
  }

  /** One `(key, value)` pair per defined value of every field, field by field. */
  function Pairs(fs: seq<(string, Field)>): seq<(string, string)>
    decreases |fs|
  {
    if fs == [] then []
    else seq(|DefinedTexts(Items(fs[0].1))|, i requires 0 <= i < |DefinedTexts(Items(fs[0].1))| =>
           (fs[0].0, DefinedTexts(Items(fs[0].1))[i])) + Pairs(fs[1..])
  }

  /** A single-valued field contributes one pair, or none when `undefined`. */
  lemma PairsSingle(k: string, v: Value, rest: seq<(string, Field)>)
    ensures Pairs([(k, Single(v))] + rest) == (if v.Defined? then [(k, v.text)] else []) + Pairs(rest)
  {
    var fs := [(k, Single(v))] + rest;
    assert fs[0] == (k, Single(v)) && fs[1..] == rest;
    assert DefinedTexts([v]) == (if v.Defined? then [v.text] else []) by {
      assert [v][1..] == [];
    }
  }

  /** The pairs in the order the query string lists them. */
  function KeyValues(q: Query): seq<(string, string)>
    requires q.Object?
  {
    Pairs(SortFields(q.fields))
  }

  function Render(kv: seq<(string, string)>, enc: string -> string): seq<string> {
    seq(|kv|, i requires 0 <= i < |kv| => enc(kv[i].0) + "=" + enc(kv[i].1))
  }

  function Join(parts: seq<string>, sep: char): string
    decreases |parts|
  {
    if parts == [] then ""
    else if |parts| == 1 then parts[0]
    else parts[0] + [sep] + Join(parts[1..], sep)
  }

  /** `buildOptions(opt)`. */
  function BuildOptions(q: Query, enc: string -> string): string
    requires q.Object? ==> DistinctKeys(q.fields)
  {
    match q
    case Primitive(t) => enc(t)
    case Object(fs) => Join(Render(KeyValues(q), enc), '&')
  }

  // ---------------------------------------------------------------------
  // Reading a query string back.

  /** `s.split(sep)`, except that the empty string has no parts. */
  function Split(s: string, sep: char): seq<string> {
    if s == [] then [] else SplitAll(s, sep)
  }

  function SplitAll(s: string, sep: char): (r: seq<string>)
    ensures |r| >= 1
    decreases |s|
  {
    if s == [] then [[]]
    else
      var rest := SplitAll(s[1..], sep);
      if s[0] == sep then [[]] + rest else [[s[0]] + rest[0]] + rest[1..]
  }

  /** Splits at the first `c`: the part before it and the part after it. */
  function SplitFirst(p: string, c: char): (string, string)
    decreases |p|
  {
    if p == [] then ([], [])
    else if p[0] == c then ([], p[1..])
    else var r := SplitFirst(p[1..], c); ([p[0]] + r.0, r.1)
  }

  function ParseQuery(s: string): seq<(string, string)> {
    var parts := Split(s, '&');
    seq(|parts|, i requires 0 <= i < |parts| => SplitFirst(parts[i], '='))
  }

  lemma {:induction false} SplitAllNoSep(a: string, sep: char)
    requires sep !in a
    ensures SplitAll(a, sep) == [a]
    decreases |a|
  {
    if a != [] {
      SplitAllNoSep(a[1..], sep);
      assert [a[0]] + a[1..] == a;
    }
  }

  lemma {:induction false} SplitAllAtSep(a: string, sep: char, b: string)
    requires sep !in a
    ensures SplitAll(a + [sep] + b, sep) == [a] + SplitAll(b, sep)
    decreases |a|
  {
    var s := a + [sep] + b;
    if a == [] {
      assert s[1..] == b;
    } else {
      assert s[1..] == a[1..] + [sep] + b;
      SplitAllAtSep(a[1..], sep, b);
      assert [a[0]] + a[1..] == a;
    }
  }

  lemma {:induction false} SplitJoin(parts: seq<string>, sep: char)
    requires forall i :: 0 <= i < |parts| ==> parts[i] != [] && sep !in parts[i]
    ensures Split(Join(parts, sep), sep) == parts
    decreases |parts|
  {
    if |parts| == 1 {
      SplitAllNoSep(parts[0], sep);
    } else if |parts| > 1 {
      SplitJoin(parts[1..], sep);
      SplitAllAtSep(parts[0], sep, Join(parts[1..], sep));
      assert Join(parts[1..], sep) != [] by {
        if |parts[1..]| == 1 {} else { assert parts[1] != []; }
      }
    }
  }

  lemma {:induction false} SplitFirstAt(a: string, c: char, b: string)
    requires c !in a
    ensures SplitFirst(a + [c] + b, c) == (a, b)
    decreases |a|
  {
    var s := a + [c] + b;
    if a == [] {
      assert s[1..] == b;
    } else {
      assert s[1..] == a[1..] + [c] + b;
      SplitFirstAt(a[1..], c, b);
      assert [a[0]] + a[1..] == a;
    }
  }

  /** An encoder that escapes `&` and `=`, as `encodeURIComponent` does. */
  ghost predicate EscapesSeparators(enc: string -> string) {
    forall s :: '&' !in enc(s) && '=' !in enc(s)
  }

  /** Round trip: reading the query string back splits it into exactly the
      encoded pairs, in order. */
  lemma BuildOptionsParses(q: Query, enc: string -> string)
    requires q.Object? && DistinctKeys(q.fields)
    requires EscapesSeparators(enc)
    ensures var kv := KeyValues(q);
      ParseQuery(BuildOptions(q, enc)) == seq(|kv|, i requires 0 <= i < |kv| => (enc(kv[i].0), enc(kv[i].1)))
  {
    var kv := KeyValues(q);
    var parts := Render(kv, enc);
    forall i | 0 <= i < |parts| ensures parts[i] != [] && '&' !in parts[i] {
      assert parts[i] == enc(kv[i].0) + "=" + enc(kv[i].1);
      assert parts[i][|enc(kv[i].0)|] == '=';
    }
    SplitJoin(parts, '&');
    forall i | 0 <= i < |parts| ensures SplitFirst(parts[i], '=') == (enc(kv[i].0), enc(kv[i].1)) {
      assert parts[i] == enc(kv[i].0) + ['='] + enc(kv[i].1);
      SplitFirstAt(enc(kv[i].0), '=', enc(kv[i].1));
    }
  }

  // ---------------------------------------------------------------------
  // What the pairs are.

  /** The defined values listed under key `k`, in order. */
  function ValuesUnder(kv: seq<(string, string)>, k: string): seq<string>
    decreases |kv|
  {
    if kv == [] then [] else (if kv[0].0 == k then [kv[0].1] else []) + ValuesUnder(kv[1..], k)
  }

  lemma {:induction false} ValuesUnderConcat(a: seq<(string, string)>, b: seq<(string, string)>, k: string)
    ensures ValuesUnder(a + b, k) == ValuesUnder(a, k) + ValuesUnder(b, k)
    decreases |a|
  {
    if a == [] {
      assert a + b == b;
    } else {
      var h := if a[0].0 == k then [a[0].1] else [];
      assert (a + b)[0] == a[0];
      assert (a + b)[1..] == a[1..] + b;
      assert ValuesUnder(a + b, k) == h + ValuesUnder(a[1..] + b, k);
      ValuesUnderConcat(a[1..], b, k);
      assert h + (ValuesUnder(a[1..], k) + ValuesUnder(b, k)) == (h + ValuesUnder(a[1..], k)) + ValuesUnder(b, k);
    }
  }

  function Block(k: string, ts: seq<string>): seq<(string, string)> {
    seq(|ts|, i requires 0 <= i < |ts| => (k, ts[i]))
  }

  lemma {:induction false} ValuesUnderBlock(k: string, ts: seq<string>, k': string)
    ensures ValuesUnder(Block(k, ts), k') == if k == k' then ts else []
    decreases |ts|
  {
    if ts != [] {
      assert Block(k, ts)[1..] == Block(k, ts[1..]);
      ValuesUnderBlock(k, ts[1..], k');
      if k == k' { assert ts == [ts[0]] + ts[1..]; }
    }
  }

  lemma {:induction false} PairsKeys(fs: seq<(string, Field)>, j: nat)
    requires j < |Pairs(fs)|
    ensures exists i :: 0 <= i < |fs| && fs[i].0 == Pairs(fs)[j].0
    decreases |fs|
  {
    var b := Block(fs[0].0, DefinedTexts(Items(fs[0].1)));
    assert Pairs(fs) == b + Pairs(fs[1..]);
    if j >= |b| {
      PairsKeys(fs[1..], j - |b|);
      var i :| 0 <= i < |fs[1..]| && fs[1..][i].0 == Pairs(fs[1..])[j - |b|].0;
      assert fs[i + 1].0 == Pairs(fs)[j].0;
    }
  }

  lemma {:induction false} PairsAbsentKey(fs: seq<(string, Field)>, k: string)
    requires forall i :: 0 <= i < |fs| ==> fs[i].0 != k
    ensures ValuesUnder(Pairs(fs), k) == []
    decreases |fs|
  {
    if fs != [] {
      var b := Block(fs[0].0, DefinedTexts(Items(fs[0].1)));
      assert Pairs(fs) == b + Pairs(fs[1..]);
      ValuesUnderConcat(b, Pairs(fs[1..]), k);
      ValuesUnderBlock(fs[0].0, DefinedTexts(Items(fs[0].1)), k);
      assert forall i :: 0 <= i < |fs[1..]| ==> fs[1..][i] == fs[i + 1];
      PairsAbsentKey(fs[1..], k);
    }
  }

  lemma {:induction false} PairsSortedFacts(fs: seq<(string, Field)>)
    requires StrictlySorted(fs)
    ensures forall i, j :: 0 <= i < j < |Pairs(fs)| ==> Pairs(fs)[i].0 == Pairs(fs)[j].0 || Below(Pairs(fs)[i].0, Pairs(fs)[j].0)
    ensures forall j :: 0 <= j < |fs| ==> ValuesUnder(Pairs(fs), fs[j].0) == DefinedTexts(Items(fs[j].1))
    decreases |fs|
  {
    if fs != [] {
      var rest := fs[1..];
      var b := Block(fs[0].0, DefinedTexts(Items(fs[0].1)));
      var p := Pairs(fs);
      assert p == b + Pairs(rest);
      PairsSortedFacts(rest);
      forall i, j | 0 <= i < j < |p| ensures p[i].0 == p[j].0 || Below(p[i].0, p[j].0) {
        if j >= |b| && i < |b| {
          PairsKeys(rest, j - |b|);
          var m :| 0 <= m < |rest| && rest[m].0 == Pairs(rest)[j - |b|].0;
          assert fs[m + 1] == rest[m];
        } else if i >= |b| {
          assert p[i] == Pairs(rest)[i - |b|] && p[j] == Pairs(rest)[j - |b|];
        }
      }
      forall j | 0 <= j < |fs| ensures ValuesUnder(p, fs[j].0) == DefinedTexts(Items(fs[j].1)) {
        ValuesUnderConcat(b, Pairs(rest), fs[j].0);
        ValuesUnderBlock(fs[0].0, DefinedTexts(Items(fs[0].1)), fs[j].0);
        if j == 0 {
          forall i | 0 <= i < |rest| ensures rest[i].0 != fs[0].0 {
            assert fs[i + 1] == rest[i];
            BelowIrreflexive(fs[0].0);
          }
          PairsAbsentKey(rest, fs[0].0);
        } else {
          assert fs[j] == rest[j - 1];
          BelowIrreflexive(fs[0].0);
        }
      }
    }
  }

  /** The pairs, characterised without reference to how they are built:
      keys come in sorted order, and under each key of the object stand
      exactly its values that are not `undefined`, an array contributing
      one pair per element in array order; a key not in the object has no
      pair. */
  lemma KeyValuesCharacterised(q: Query)
    requires q.Object? && DistinctKeys(q.fields)
    ensures var kv := KeyValues(q);
      forall i, j :: 0 <= i < j < |kv| ==> kv[i].0 == kv[j].0 || Below(kv[i].0, kv[j].0)
    ensures forall j :: 0 <= j < |q.fields| ==> ValuesUnder(KeyValues(q), q.fields[j].0) == DefinedTexts(Items(q.fields[j].1))
    ensures forall k :: (forall j :: 0 <= j < |q.fields| ==> q.fields[j].0 != k) ==> ValuesUnder(KeyValues(q), k) == []
  {
    KeyValuesSorted(q);
    KeyValuesUnderKey(q);
    KeyValuesAbsent(q);
  }

  lemma KeyValuesSorted(q: Query)
    requires q.Object? && DistinctKeys(q.fields)
    ensures var kv := KeyValues(q);
      forall i, j :: 0 <= i < j < |kv| ==> kv[i].0 == kv[j].0 || Below(kv[i].0, kv[j].0)
  {
    SortFieldsSorted(q.fields);
    PairsSortedFacts(SortFields(q.fields));
  }

  lemma KeyValuesUnderKey(q: Query)
    requires q.Object? && DistinctKeys(q.fields)
    ensures forall j :: 0 <= j < |q.fields| ==> ValuesUnder(KeyValues(q), q.fields[j].0) == DefinedTexts(Items(q.fields[j].1))
  {
    forall j | 0 <= j < |q.fields| ensures ValuesUnder(KeyValues(q), q.fields[j].0) == DefinedTexts(Items(q.fields[j].1)) {
      KeyValuesOfField(q, j);
    }
  }

  lemma KeyValuesOfField(q: Query, j: nat)
    requires q.Object? && DistinctKeys(q.fields) && j < |q.fields|
    ensures ValuesUnder(KeyValues(q), q.fields[j].0) == DefinedTexts(Items(q.fields[j].1))
  {
    var s := SortFields(q.fields);
    SortFieldsSorted(q.fields);
    PairsSortedFacts(s);
    assert q.fields[j] in multiset(s);
    var m :| 0 <= m < |s| && s[m] == q.fields[j];
  }

  lemma KeyValuesAbsent(q: Query)
    requires q.Object?
    ensures forall k :: (forall j :: 0 <= j < |q.fields| ==> q.fields[j].0 != k) ==> ValuesUnder(KeyValues(q), k) == []
  {
    var s := SortFields(q.fields);
    forall k | (forall j :: 0 <= j < |q.fields| ==> q.fields[j].0 != k) ensures ValuesUnder(Pairs(s), k) == [] {
      forall m | 0 <= m < |s| ensures s[m].0 != k {
        assert s[m] in multiset(q.fields);
        var j :| 0 <= j < |q.fields| && q.fields[j] == s[m];
      }
      PairsAbsentKey(s, k);
    }
  }

  /** Insertion order does not matter: two objects with the same entries
      produce the same query string. */
  lemma BuildOptionsOrderFree(a: seq<(string, Field)>, b: seq<(string, Field)>, enc: string -> string)
    requires DistinctKeys(a) && DistinctKeys(b) && multiset(a) == multiset(b)
    ensures BuildOptions(Object(a), enc) == BuildOptions(Object(b), enc)
  {
    SortFieldsSorted(a);
    SortFieldsSorted(b);
    SortedUnique(SortFields(a), SortFields(b));
  }

  lemma {:induction false} PairsEmpty(fs: seq<(string, Field)>)
    ensures Pairs(fs) == [] <==> forall i :: 0 <= i < |fs| ==> DefinedTexts(Items(fs[i].1)) == []
    decreases |fs|
  {
    if fs != [] {
      PairsEmpty(fs[1..]);
      assert forall i :: 1 <= i < |fs| ==> fs[i] == fs[1..][i - 1];
    }
  }

  lemma {:induction false} JoinEmpty(parts: seq<string>, sep: char)
    requires forall i :: 0 <= i < |parts| ==> parts[i] != []
    ensures Join(parts, sep) == [] <==> parts == []
    decreases |parts|
  {
    if |parts| > 1 {
      assert |Join(parts, sep)| >= |parts[0]|;
    }
  }

  /** The query string is empty exactly when no option has a defined value;
      in particular an object whose values are all `undefined` yields "". */
  lemma BuildOptionsEmpty(fs: seq<(string, Field)>, enc: string -> string)
    requires DistinctKeys(fs)
    ensures BuildOptions(Object(fs), enc) == "" <==> forall i :: 0 <= i < |fs| ==> DefinedTexts(Items(fs[i].1)) == []
  {
    var s := SortFields(fs);
    var kv := Pairs(s);
    var parts := Render(kv, enc);
    forall i | 0 <= i < |parts| ensures parts[i] != [] {
      assert parts[i] == enc(kv[i].0) + "=" + enc(kv[i].1);
      assert parts[i][|enc(kv[i].0)|] == '=';
    }
    JoinEmpty(parts, '&');
    PairsEmpty(s);
    if forall i :: 0 <= i < |fs| ==> DefinedTexts(Items(fs[i].1)) == [] {
      forall m | 0 <= m < |s| ensures DefinedTexts(Items(s[m].1)) == [] {
        assert s[m] in multiset(fs);
        var j :| 0 <= j < |fs| && fs[j] == s[m];
      }
    } else {
      var j :| 0 <= j < |fs| && DefinedTexts(Items(fs[j].1)) != [];
      assert fs[j] in multiset(s);
      var m :| 0 <= m < |s| && s[m] == fs[j];
    }
  }
}

=== FILE: sync_schedule.dfy ===
/** How one `/sync` reply is flattened into a single event list
    (matrix-client.ts, the body of the `events()` loop). Every slot of the
    flat list records the position it was taken from, its `Origin`, so that
    the fixed section order can be stated as "the origins are listed in
    increasing order, each valid position exactly once". */
module SyncSchedule {
  import opened Wrappers
  import opened MatrixTypes

  /** Which part of the reply a slot comes from. */
  datatype Group = TopLevel | Invited | Joined | Left

  /** The array inside a group; declared in the order the stream visits them. */
  datatype Section =
    | AccountData | ToDevice | Presence
    | InviteState | RoomAccountData | Ephemeral | RoomState | Timeline

  function GroupRank(g: Group): nat {
    match g
    case TopLevel => 0
    case Invited => 1
    case Joined => 2
    case Left => 3
  }

  function SectionRank(s: Section): nat {
    match s
    case AccountData => 0
    case ToDevice => 1
    case Presence => 2
    case InviteState => 3
    case RoomAccountData => 4
    case Ephemeral => 5
    case RoomState => 6
    case Timeline => 7
  }

  /** A position in a reply: group, room number (0 for the top level),
      section, and index inside the section's array. */
  datatype Origin = Origin(group: Group, room: nat, section: Section, index: nat)

  /** The stream order: groups, then rooms in `Object.entries` order, then
      sections, then array order. */
  predicate Before(a: Origin, b: Origin) {
    || GroupRank(a.group) < GroupRank(b.group)
    || (a.group == b.group && a.room < b.room)
    || (a.group == b.group && a.room == b.room && SectionRank(a.section) < SectionRank(b.section))
    || (a.group == b.group && a.room == b.room && a.section == b.section && a.index < b.index)
  }

  /** One element of the flattened reply, before deduplication. */
  datatype Slot = Slot(origin: Origin, event: Event)

  /** Sections whose events go through `isUnique` (invite state, room state,
      timeline); every other section is yielded unfiltered. */
  predicate Checked(s: Slot) {
    s.origin.section.InviteState? || s.origin.section.RoomState? || s.origin.section.Timeline?
  }

  /** `{ ...ev, room_id }`: room-scoped events get the enclosing room's key. */
  function Tag(ev: Event, key: Option<string>): (r: Event)
    ensures key.Some? ==> r.roomId == key
    ensures key.None? ==> r == ev
    ensures r.(roomId := ev.roomId) == ev
    ensures r.kind == ev.kind && r.content == ev.content && r.eventId == ev.eventId && r.sender == ev.sender
  {
    match key
    case None => ev
    case Some(k) => ev.(roomId := Some(k))
  }

  /** The arrays of one room of any group, under a common shape. Sections a
      group does not have are empty. */
  datatype RoomBlock = RoomBlock(
    key: string,
    inviteState: seq<Event>,
    accountData: seq<Event>,
    ephemeral: seq<Event>,
    state: seq<Event>,
    timeline: seq<Event>)

  function FromInvited(e: (string, InvitedRoom)): RoomBlock {
    RoomBlock(e.0, e.1.inviteState, [], [], [], [])
  }

  function FromJoined(e: (string, JoinedRoom)): RoomBlock {
    RoomBlock(e.0, [], Events(e.1.accountData), Events(e.1.ephemeral), Events(e.1.state), Events(e.1.timeline))
  }

  /** A left room contributes account data, state and timeline; it has no ephemeral block. */
  function FromLeft(e: (string, LeftRoom)): RoomBlock {
    RoomBlock(e.0, [], Events(e.1.accountData), [], Events(e.1.state), Events(e.1.timeline))
  }

  function BlocksOf<T>(m: Option<RoomMap<T>>, f: ((string, T)) -> RoomBlock): seq<RoomBlock> {
    match m
    case None => []
    case Some(entries) => seq(|entries|, i requires 0 <= i < |entries| => f(entries[i]))
  }

  /** The rooms of one group in `Object.entries` order; none without `rooms`. */
  function Blocks(res: SyncResponse, g: Group): seq<RoomBlock> {
    match res.rooms
    case None => []
    case Some(rooms) =>
      match g
      case TopLevel => []
      case Invited => BlocksOf(rooms.invite, FromInvited)
      case Joined => BlocksOf(rooms.join, FromJoined)
      case Left => BlocksOf(rooms.leave, FromLeft)
  }

  function TopBatch(res: SyncResponse, s: Section): seq<Event> {
    match s
    case AccountData => Events(res.accountData)
    case ToDevice => Events(res.toDevice)
    case Presence => Events(res.presence)
    case _ => []
  }

  function BlockBatch(b: RoomBlock, s: Section): seq<Event> {
    match s
    case InviteState => b.inviteState
    case RoomAccountData => b.accountData
    case Ephemeral => b.ephemeral
    case RoomState => b.state
    case Timeline => b.timeline
    case _ => []
  }

  /** The raw array an origin points into ([] when it points nowhere). */
  function SectionEvents(res: SyncResponse, o: Origin): seq<Event> {
    if o.group.TopLevel? then
      if o.room == 0 then TopBatch(res, o.section) else []
    else
      var bs := Blocks(res, o.group);
      if o.room < |bs| then BlockBatch(bs[o.room], o.section) else []
  }

  /** An origin that names an event actually present in the reply. */
  predicate ValidOrigin(res: SyncResponse, o: Origin) {
    o.index < |SectionEvents(res, o)|
  }

  /** The event a valid origin names, tagged with its room key when room-scoped. */
  function Source(res: SyncResponse, o: Origin): Event
    requires ValidOrigin(res, o)
  {
    if o.group.TopLevel? then SectionEvents(res, o)[o.index]
    else Tag(SectionEvents(res, o)[o.index], Some(Blocks(res, o.group)[o.room].key))
  }

  // ---------------------------------------------------------------------
  // The flattening, written the way the source loops are nested.

  function SectionSlots(g: Group, room: nat, s: Section, evs: seq<Event>, key: Option<string>): seq<Slot> {
    seq(|evs|, i requires 0 <= i < |evs| => Slot(Origin(g, room, s, i), Tag(evs[i], key)))
  }

  /** Top-level account data, then to-device, then presence. */
  function TopSlots(res: SyncResponse): seq<Slot> {
    SectionSlots(TopLevel, 0, AccountData, Events(res.accountData), None)
    + SectionSlots(TopLevel, 0, ToDevice, Events(res.toDevice), None)
    + SectionSlots(TopLevel, 0, Presence, Events(res.presence), None)
  }

  /** The sections of a room, in the order the stream visits them. */
  const RoomSections: seq<Section> := [InviteState, RoomAccountData, Ephemeral, RoomState, Timeline]

  /** The given sections of one room, one after the other. */
  function SectionsSlots(g: Group, room: nat, b: RoomBlock, ss: seq<Section>): seq<Slot>
    decreases |ss|
  {
    if ss == [] then []
    else SectionsSlots(g, room, b, ss[..|ss| - 1]) + SectionSlots(g, room, ss[|ss| - 1], BlockBatch(b, ss[|ss| - 1]), Some(b.key))
  }

  /** One room: its sections in stream order (absent sections are empty). */
  function BlockSlots(g: Group, room: nat, b: RoomBlock): seq<Slot> {
    SectionsSlots(g, room, b, RoomSections)
  }

  /** All rooms of one group, in order. */
  function GroupSlots(g: Group, bs: seq<RoomBlock>): seq<Slot>
    decreases |bs|
  {
    if bs == [] then []
    else GroupSlots(g, bs[..|bs| - 1]) + BlockSlots(g, |bs| - 1, bs[|bs| - 1])
  }

  /** The whole reply, flattened: top level, then invites, joins and leaves. */
  function Schedule(res: SyncResponse): seq<Slot> {
    TopSlots(res)
    + GroupSlots(Invited, Blocks(res, Invited))
    + GroupSlots(Joined, Blocks(res, Joined))
    + GroupSlots(Left, Blocks(res, Left))
  }

  // ---------------------------------------------------------------------
  // The order theorem.

  predicate Sorted(xs: seq<Slot>) {
    forall i, j :: 0 <= i < j < |xs| ==> Before(xs[i].origin, xs[j].origin)
  }

  predicate Covers(xs: seq<Slot>, o: Origin) {
    exists i :: 0 <= i < |xs| && xs[i].origin == o
  }

  lemma BeforeIsStrict(a: Origin, b: Origin, c: Origin)
    ensures !Before(a, a)
    ensures Before(a, b) && Before(b, c) ==> Before(a, c)
    ensures a != b ==> Before(a, b) || Before(b, a)
  {
    if a != b && !Before(a, b) && !Before(b, a) {
      assert GroupRank(a.group) == GroupRank(b.group);
      assert a.group == b.group by {
        match a.group
        case TopLevel =>
        case Invited =>
        case Joined =>
        case Left =>
      }
      assert SectionRank(a.section) == SectionRank(b.section);
      assert a.section == b.section by {
        match a.section
        case AccountData =>
        case ToDevice =>
        case Presence =>
        case InviteState =>
        case RoomAccountData =>
        case Ephemeral =>
        case RoomState =>
        case Timeline =>
      }
    }
  }

  lemma SortedConcat(a: seq<Slot>, b: seq<Slot>)
    requires Sorted(a) && Sorted(b)
    requires forall i, j :: 0 <= i < |a| && 0 <= j < |b| ==> Before(a[i].origin, b[j].origin)
    ensures Sorted(a + b)
  {
    forall i, j | 0 <= i < j < |a + b|
      ensures Before((a + b)[i].origin, (a + b)[j].origin)
    {
      if j < |a| {
      } else if i >= |a| {
        assert (a + b)[i] == b[i - |a|] && (a + b)[j] == b[j - |a|];
      } else {
        assert (a + b)[j] == b[j - |a|];
      }
    }
  }

  lemma CoversConcat(a: seq<Slot>, b: seq<Slot>, o: Origin)
    requires Covers(a, o) || Covers(b, o)
    ensures Covers(a + b, o)
  {
    if Covers(a, o) {
      var i :| 0 <= i < |a| && a[i].origin == o;
      assert (a + b)[i] == a[i];
    } else {
      var i :| 0 <= i < |b| && b[i].origin == o;
      assert (a + b)[|a| + i] == b[i];
    }
  }

  /** What a slot of one room block is: an event of that block at its position. */
  predicate InBlock(g: Group, room: nat, b: RoomBlock, s: Slot) {
    && s.origin.group == g && s.origin.room == room
    && s.origin.index < |BlockBatch(b, s.origin.section)|
    && s.event == Tag(BlockBatch(b, s.origin.section)[s.origin.index], Some(b.key))
  }

  lemma {:induction false} SectionsSlotsExact(g: Group, room: nat, b: RoomBlock, ss: seq<Section>)
    requires forall i, j :: 0 <= i < j < |ss| ==> SectionRank(ss[i]) < SectionRank(ss[j])
    ensures forall k :: 0 <= k < |SectionsSlots(g, room, b, ss)| ==>
      InBlock(g, room, b, SectionsSlots(g, room, b, ss)[k]) && SectionsSlots(g, room, b, ss)[k].origin.section in ss
    ensures Sorted(SectionsSlots(g, room, b, ss))
    ensures forall s: Section, idx: nat :: s in ss && idx < |BlockBatch(b, s)| ==> Covers(SectionsSlots(g, room, b, ss), Origin(g, room, s, idx))
    decreases |ss|
  {
    if ss != [] {
      var n := |ss| - 1;
      var pre := ss[..n];
      var last := ss[n];
      var a := SectionsSlots(g, room, b, pre);
      var c := SectionSlots(g, room, last, BlockBatch(b, last), Some(b.key));
      SectionsSlotsExact(g, room, b, pre);
      forall i, j | 0 <= i < |a| && 0 <= j < |c| ensures Before(a[i].origin, c[j].origin) {
        var p :| 0 <= p < n && pre[p] == a[i].origin.section;
      }
      SortedConcat(a, c);
      var xs := SectionsSlots(g, room, b, ss);
      assert xs == a + c;
      forall k | 0 <= k < |xs| ensures InBlock(g, room, b, xs[k]) && xs[k].origin.section in ss {
        if k < |a| {
          assert xs[k] == a[k];
        } else {
          assert xs[k] == c[k - |a|];
        }
      }
      forall s: Section, idx: nat | s in ss && idx < |BlockBatch(b, s)|
        ensures Covers(xs, Origin(g, room, s, idx))
      {
        if s == last {
          assert c[idx].origin == Origin(g, room, s, idx);
        } else {
          assert s in pre;
        }
        CoversConcat(a, c, Origin(g, room, s, idx));
      }
    }
  }

  lemma BlockSlotsExact(g: Group, room: nat, b: RoomBlock)
    ensures forall k :: 0 <= k < |BlockSlots(g, room, b)| ==> InBlock(g, room, b, BlockSlots(g, room, b)[k])
    ensures Sorted(BlockSlots(g, room, b))
    ensures forall s: Section, idx: nat :: idx < |BlockBatch(b, s)| ==> Covers(BlockSlots(g, room, b), Origin(g, room, s, idx))
  {
    SectionsSlotsExact(g, room, b, RoomSections);
    forall s: Section, idx: nat | idx < |BlockBatch(b, s)|
      ensures Covers(BlockSlots(g, room, b), Origin(g, room, s, idx))
    {
      assert s in RoomSections;
    }
  }

  /** What a slot of a group is: an event of one of its rooms at its position. */
  predicate InGroup(g: Group, bs: seq<RoomBlock>, s: Slot) {
    s.origin.room < |bs| && InBlock(g, s.origin.room, bs[s.origin.room], s)
  }

  lemma GroupSlotsExact(g: Group, bs: seq<RoomBlock>)
    ensures forall k :: 0 <= k < |GroupSlots(g, bs)| ==> InGroup(g, bs, GroupSlots(g, bs)[k])
    ensures Sorted(GroupSlots(g, bs))
    ensures forall r: nat, s: Section, idx: nat :: r < |bs| && idx < |BlockBatch(bs[r], s)| ==> Covers(GroupSlots(g, bs), Origin(g, r, s, idx))
  {
    GroupSlotsMembers(g, bs);
    GroupSlotsSorted(g, bs);
    GroupSlotsCover(g, bs);
  }

  lemma {:induction false} GroupSlotsMembers(g: Group, bs: seq<RoomBlock>)
    ensures forall k :: 0 <= k < |GroupSlots(g, bs)| ==> InGroup(g, bs, GroupSlots(g, bs)[k])
    decreases |bs|
  {
    if bs != [] {
      var n := |bs| - 1;
      var pre := bs[..n];
      var a := GroupSlots(g, pre);
      var c := BlockSlots(g, n, bs[n]);
      GroupSlotsMembers(g, pre);
      BlockSlotsExact(g, n, bs[n]);
      var xs := GroupSlots(g, bs);
      assert xs == a + c;
      forall k | 0 <= k < |xs| ensures InGroup(g, bs, xs[k]) {
        if k < |a| {
          assert xs[k] == a[k];
          assert InGroup(g, pre, a[k]);
          assert pre[a[k].origin.room] == bs[a[k].origin.room];
        } else {
          assert xs[k] == c[k - |a|];
          assert InBlock(g, n, bs[n], c[k - |a|]);
        }
      }
    }
  }

  lemma {:induction false} GroupSlotsSorted(g: Group, bs: seq<RoomBlock>)
    ensures Sorted(GroupSlots(g, bs))
    decreases |bs|
  {
    if bs != [] {
      var n := |bs| - 1;
      var pre := bs[..n];
      var a := GroupSlots(g, pre);
      var c := BlockSlots(g, n, bs[n]);
      GroupSlotsSorted(g, pre);
      GroupSlotsMembers(g, pre);
      BlockSlotsExact(g, n, bs[n]);
      forall i, j | 0 <= i < |a| && 0 <= j < |c| ensures Before(a[i].origin, c[j].origin) {
        assert InGroup(g, pre, a[i]);
        assert InBlock(g, n, bs[n], c[j]);
      }
      SortedConcat(a, c);
      assert GroupSlots(g, bs) == a + c;
    }
  }

  lemma {:induction false} GroupSlotsCover(g: Group, bs: seq<RoomBlock>)
    ensures forall r: nat, s: Section, idx: nat :: r < |bs| && idx < |BlockBatch(bs[r], s)| ==> Covers(GroupSlots(g, bs), Origin(g, r, s, idx))
    decreases |bs|
  {
    if bs != [] {
      var n := |bs| - 1;
      var pre := bs[..n];
      var a := GroupSlots(g, pre);
      var c := BlockSlots(g, n, bs[n]);
      GroupSlotsCover(g, pre);
      BlockSlotsExact(g, n, bs[n]);
      var xs := GroupSlots(g, bs);
      assert xs == a + c;
      forall r: nat, s: Section, idx: nat | r < |bs| && idx < |BlockBatch(bs[r], s)|
        ensures Covers(xs, Origin(g, r, s, idx))
      {
        if r < n {
          assert pre[r] == bs[r];
          assert Covers(a, Origin(g, r, s, idx));
        } else {
          assert Covers(c, Origin(g, r, s, idx));
        }
        CoversConcat(a, c, Origin(g, r, s, idx));
      }
    }
  }

  lemma TopSlotsExact(res: SyncResponse)
    ensures forall k :: 0 <= k < |TopSlots(res)| ==>
      var o := TopSlots(res)[k].origin;
      o.group.TopLevel? && ValidOrigin(res, o) && TopSlots(res)[k].event == Source(res, o)
    ensures Sorted(TopSlots(res))
    ensures forall o :: ValidOrigin(res, o) && o.group.TopLevel? ==> Covers(TopSlots(res), o)
  {
    var s1 := SectionSlots(TopLevel, 0, AccountData, Events(res.accountData), None);
    var s2 := SectionSlots(TopLevel, 0, ToDevice, Events(res.toDevice), None);
    var s3 := SectionSlots(TopLevel, 0, Presence, Events(res.presence), None);
    SortedConcat(s1, s2);
    SortedConcat(s1 + s2, s3);
    var xs := TopSlots(res);
    assert xs == s1 + s2 + s3;
    forall k | 0 <= k < |xs|
      ensures var o := xs[k].origin; o.group.TopLevel? && ValidOrigin(res, o) && xs[k].event == Source(res, o)
    {
      if k < |s1| { assert xs[k] == s1[k]; }
      else if k < |s1| + |s2| { assert xs[k] == s2[k - |s1|]; }
      else { assert xs[k] == s3[k - |s1| - |s2|]; }
    }
    forall o | ValidOrigin(res, o) && o.group.TopLevel? ensures Covers(xs, o) {
      match o.section
      case AccountData =>
        assert s1[o.index].origin == o;
        CoversConcat(s1, s2, o); CoversConcat(s1 + s2, s3, o);
      case ToDevice =>
        assert s2[o.index].origin == o;
        CoversConcat(s1, s2, o); CoversConcat(s1 + s2, s3, o);
      case Presence =>
        assert s3[o.index].origin == o;
        CoversConcat(s1 + s2, s3, o);
      case _ =>
    }
  }

  /** The group part of the schedule lists exactly the group's valid origins. */
  lemma GroupPartExact(res: SyncResponse, g: Group)
    requires !g.TopLevel?
    ensures forall k :: 0 <= k < |GroupSlots(g, Blocks(res, g))| ==>
      var o := GroupSlots(g, Blocks(res, g))[k].origin;
      o.group == g && ValidOrigin(res, o) && GroupSlots(g, Blocks(res, g))[k].event == Source(res, o)
    ensures Sorted(GroupSlots(g, Blocks(res, g)))
    ensures forall o :: ValidOrigin(res, o) && o.group == g ==> Covers(GroupSlots(g, Blocks(res, g)), o)
  {
    var bs := Blocks(res, g);
    var xs := GroupSlots(g, bs);
    GroupSlotsExact(g, bs);
    forall k | 0 <= k < |xs|
      ensures var o := xs[k].origin; o.group == g && ValidOrigin(res, o) && xs[k].event == Source(res, o)
    {
      assert InGroup(g, bs, xs[k]);
    }
    forall o | ValidOrigin(res, o) && o.group == g ensures Covers(xs, o) {
      assert o == Origin(g, o.room, o.section, o.index);
    }
  }

  /** Section order of one reply: the flattened list names each event of the
      reply exactly once, tagged with its room key when room-scoped, in the
      order top level (account data, to-device, presence), invited rooms,
      joined rooms (account data, ephemeral, state, timeline), left rooms
      (account data, state, timeline), with array order kept inside each
      section. */
  lemma ScheduleExact(res: SyncResponse)
    ensures forall k :: 0 <= k < |Schedule(res)| ==>
      ValidOrigin(res, Schedule(res)[k].origin) && Schedule(res)[k].event == Source(res, Schedule(res)[k].origin)
    ensures Sorted(Schedule(res))
    ensures forall o :: ValidOrigin(res, o) ==> Covers(Schedule(res), o)
  {
    var t := TopSlots(res);
    var iv := GroupSlots(Invited, Blocks(res, Invited));
    var jn := GroupSlots(Joined, Blocks(res, Joined));
    var lf := GroupSlots(Left, Blocks(res, Left));
    TopPartExact(res);
    GroupPartIsExact(res, Invited);
    GroupPartIsExact(res, Joined);
    GroupPartIsExact(res, Left);
    ExactConcat(res, t, iv, {TopLevel}, {Invited});
    ExactConcat(res, t + iv, jn, {TopLevel, Invited}, {Joined});
    ExactConcat(res, t + iv + jn, lf, {TopLevel, Invited, Joined}, {Left});
    assert Schedule(res) == t + iv + jn + lf;
    forall o | ValidOrigin(res, o) ensures o.group in {TopLevel, Invited, Joined, Left} {
      match o.group
      case TopLevel =>
      case Invited =>
      case Joined =>
      case Left =>
    }
  }

  /** `xs` lists, in order, exactly the valid origins of the groups `gs`,
      each with its source event. */
  ghost predicate Exact(res: SyncResponse, xs: seq<Slot>, gs: set<Group>) {
    && (forall k :: 0 <= k < |xs| ==>
          xs[k].origin.group in gs && ValidOrigin(res, xs[k].origin) && xs[k].event == Source(res, xs[k].origin))
    && Sorted(xs)
    && (forall o :: ValidOrigin(res, o) && o.group in gs ==> Covers(xs, o))
  }

  lemma ExactConcat(res: SyncResponse, a: seq<Slot>, b: seq<Slot>, ga: set<Group>, gb: set<Group>)
    requires Exact(res, a, ga) && Exact(res, b, gb)
    requires forall g, h :: g in ga && h in gb ==> GroupRank(g) < GroupRank(h)
    ensures Exact(res, a + b, ga + gb)
  {
    forall i, j | 0 <= i < |a| && 0 <= j < |b| ensures Before(a[i].origin, b[j].origin) {
      assert a[i].origin.group in ga && b[j].origin.group in gb;
    }
    SortedConcat(a, b);
    forall k | 0 <= k < |a + b|
      ensures var x := (a + b)[k]; x.origin.group in ga + gb && ValidOrigin(res, x.origin) && x.event == Source(res, x.origin)
    {
      if k < |a| { assert (a + b)[k] == a[k]; } else { assert (a + b)[k] == b[k - |a|]; }
    }
    forall o | ValidOrigin(res, o) && o.group in ga + gb ensures Covers(a + b, o) {
      CoversConcat(a, b, o);
    }
  }

  lemma TopPartExact(res: SyncResponse)
    ensures Exact(res, TopSlots(res), {TopLevel})
  {
    TopSlotsExact(res);
  }

  lemma GroupPartIsExact(res: SyncResponse, g: Group)
    requires !g.TopLevel?
    ensures Exact(res, GroupSlots(g, Blocks(res, g)), {g})
  {
    GroupPartExact(res, g);
  }

}

=== FILE: sync_stream.dfy ===
/** `MatrixClient.events()` (matrix-client.ts): the long-poll loop that turns
    `/sync` replies into one event stream. One poll is a pure step from the
    seen-map and a reply to the yielded events, the new seen-map and the
    next cursor; the endless loop is a fold over the finite list of replies
    received so far. The `cancel` wrapper is left out. */
module SyncStream {
  import opened Wrappers
  import opened MatrixTypes
  import opened SyncSchedule
  import opened Dedup
  import QueryString
  import TxIds

  const DefaultTimeout: int := 30000

  /** `timeout = this.opt?.pollTimeout || DefaultTimeout`: an explicit
      argument wins; otherwise a missing or zero `pollTimeout` falls back to
      the default. */
  function PollTimeout(argument: Option<int>, pollTimeout: Option<int>): (t: int)
    ensures argument.Some? ==> t == argument.value
    ensures argument.None? && (pollTimeout.None? || pollTimeout.value == 0) ==> t == DefaultTimeout
    ensures argument.None? && pollTimeout.Some? && pollTimeout.value != 0 ==> t == pollTimeout.value
  {
    match argument
    case Some(t) => t
    case None =>
      if pollTimeout.Some? && pollTimeout.value != 0 then pollTimeout.value else DefaultTimeout
  }

  /** The `{ timeout, since }` query of one `/sync` request. */
  datatype SyncRequest = SyncRequest(timeout: int, since: Option<string>)

  /** The query object exactly as the source builds it: `timeout` first, then
      `since`, which is `undefined` on the first poll. */
  function RequestQuery(req: SyncRequest): QueryString.Query {
    QueryString.Object([
      ("timeout", QueryString.Single(QueryString.Defined(TxIds.IntToString(req.timeout)))),
      ("since", QueryString.Single(if req.since.Some? then QueryString.Defined(req.since.value) else QueryString.Undefined))
    ])
  }

  /** `since` sorts before `timeout`. */
  lemma RequestFieldsSorted(req: SyncRequest)
    ensures var fs := RequestQuery(req).fields;
      QueryString.SortFields(fs) == [fs[1], fs[0]]
  {
    var fs := RequestQuery(req).fields;
    var t := fs[0];
    var s := fs[1];
    assert fs == [t, s];
    assert !QueryString.Below("timeout", "since");
    assert QueryString.SortFields([s]) == [s] by {
      assert [s][1..] == [];
    }
    assert QueryString.SortFields([t, s]) == QueryString.InsertField(t, [s]) by {
      assert [t, s][1..] == [s];
    }
    assert QueryString.InsertField(t, [s]) == [s, t] by {
      assert [s][1..] == [];
    }
  }

  /** The pairs of the query, in the order they go on the wire: `since`
      (when present) sorts before `timeout`. */
  lemma RequestQueryPairs(req: SyncRequest)
    ensures req.since.None? ==> QueryString.KeyValues(RequestQuery(req)) == [("timeout", TxIds.IntToString(req.timeout))]
    ensures req.since.Some? ==>
      QueryString.KeyValues(RequestQuery(req)) == [("since", req.since.value), ("timeout", TxIds.IntToString(req.timeout))]
  {
    var fs := RequestQuery(req).fields;
    RequestFieldsSorted(req);
    PairsOfTwo(fs[1], fs[0]);
  }

  lemma PairsOfTwo(a: (string, QueryString.Field), b: (string, QueryString.Field))
    requires a.1.Single? && b.1.Single? && b.1.value.Defined?
    ensures QueryString.Pairs([a, b])
      == (if a.1.value.Defined? then [(a.0, a.1.value.text)] else []) + [(b.0, b.1.value.text)]
  {
    QueryString.PairsSingle(b.0, b.1.value, []);
    QueryString.PairsSingle(a.0, a.1.value, [b]);
    assert [a, b] == [(a.0, QueryString.Single(a.1.value))] + [b];
    assert [b] == [(b.0, QueryString.Single(b.1.value))] + [];
  }

  lemma RequestParts(req: SyncRequest, enc: string -> string)
    ensures var y := enc("timeout") + "=" + enc(TxIds.IntToString(req.timeout));
      QueryString.Render(QueryString.KeyValues(RequestQuery(req)), enc)
        == if req.since.None? then [y] else [enc("since") + "=" + enc(req.since.value), y]
  {
    RequestQueryPairs(req);
  }

  /** What goes on the wire: the first poll sends only the timeout; later
      polls send the cursor and then the timeout. */
  lemma RequestQueryText(req: SyncRequest, enc: string -> string)
    ensures req.since.None? ==>
      QueryString.BuildOptions(RequestQuery(req), enc) == enc("timeout") + "=" + enc(TxIds.IntToString(req.timeout))
    ensures req.since.Some? ==>
      QueryString.BuildOptions(RequestQuery(req), enc)
        == (enc("since") + "=" + enc(req.since.value)) + "&" + (enc("timeout") + "=" + enc(TxIds.IntToString(req.timeout)))
  {
    var parts := QueryString.Render(QueryString.KeyValues(RequestQuery(req)), enc);
    RequestParts(req, enc);
    if req.since.Some? {
      assert parts[1..] == [parts[1]];
      assert QueryString.Join(parts, '&') == parts[0] + "&" + parts[1];
    }
  }

  datatype PollResult = PollResult(events: seq<Event>, seen: Seen, cursor: string)

  function EventsOf(xs: seq<Slot>): (evs: seq<Event>)
    ensures |evs| == |xs| && forall i :: 0 <= i < |xs| ==> evs[i] == xs[i].event
  {
    seq(|xs|, i requires 0 <= i < |xs| => xs[i].event)
  }

  lemma EventsOfConcat(a: seq<Slot>, b: seq<Slot>)
    ensures EventsOf(a + b) == EventsOf(a) + EventsOf(b)
  {
  }

  /** One iteration of the loop: flatten the reply, pass it through the
      dedup filter, and take `next_batch` as the new cursor. A reply without
      `rooms` yields just its top-level events, unfiltered. */
  function Poll(seen: Seen, res: SyncResponse): (r: PollResult)
    ensures r.cursor == res.nextBatch
    ensures seen.None? <==> r.seen.None?
    ensures seen.Some? ==> seen.value <= r.seen.value
  {
    var f := Filter(seen, Schedule(res));
    FilterSeen(seen, Schedule(res));
    PollResult(EventsOf(f.kept), f.seen, res.nextBatch)
  }

  /** A reply without `rooms` yields exactly its top-level account data,
      to-device and presence events, in that order, and records nothing. */
  lemma PollWithoutRooms(seen: Seen, res: SyncResponse)
    requires res.rooms.None?
    ensures Poll(seen, res).events == Events(res.accountData) + Events(res.toDevice) + Events(res.presence)
    ensures Poll(seen, res).seen == seen
  {
    assert Schedule(res) == TopSlots(res) by {
      assert Blocks(res, Invited) == [] && Blocks(res, Joined) == [] && Blocks(res, Left) == [];
    }
    TopSlotsEvents(res);
    FilterUnchecked(seen, TopSlots(res));
  }

  /** The top-level slots are never checked and carry the top-level events
      unchanged, in order. */
  lemma TopSlotsEvents(res: SyncResponse)
    ensures forall i :: 0 <= i < |TopSlots(res)| ==> !Checked(TopSlots(res)[i])
    ensures EventsOf(TopSlots(res)) == Events(res.accountData) + Events(res.toDevice) + Events(res.presence)
  {
    var s1 := SectionSlots(TopLevel, 0, AccountData, Events(res.accountData), None);
    var s2 := SectionSlots(TopLevel, 0, ToDevice, Events(res.toDevice), None);
    var s3 := SectionSlots(TopLevel, 0, Presence, Events(res.presence), None);
    assert EventsOf(s1) == Events(res.accountData);
    assert EventsOf(s2) == Events(res.toDevice);
    assert EventsOf(s3) == Events(res.presence);
    EventsOfConcat(s1 + s2, s3);
    EventsOfConcat(s1, s2);
  }

  /** Order and completeness of one poll: the yielded events are those of a
      sub-list of the flattened reply, in stream order, each the reply's
      event at its position tagged with its room key; every event exempt
      from dedup (top-level, room account data, ephemeral, id-less) is among
      them. Which checked events survive is `KeptOnce`. */
  lemma PollOrder(seen: Seen, res: SyncResponse)
    ensures var ks := Filter(seen, Schedule(res)).kept;
      && Poll(seen, res).events == EventsOf(ks)
      && Sorted(ks)
      && (forall k :: 0 <= k < |ks| ==> ValidOrigin(res, ks[k].origin) && ks[k].event == Source(res, ks[k].origin))
      && (forall o :: ValidOrigin(res, o) && Exempt(Slot(o, Source(res, o))) ==> Covers(ks, o))
  {
    var xs := Schedule(res);
    var ks := Filter(seen, xs).kept;
    ScheduleExact(res);
    FilterKeepsOrder(seen, xs);
    forall k | 0 <= k < |ks| ensures ValidOrigin(res, ks[k].origin) && ks[k].event == Source(res, ks[k].origin) {
      assert ks[k] in xs;
    }
    ExemptAlwaysKept(seen, xs);
    forall o | ValidOrigin(res, o) && Exempt(Slot(o, Source(res, o))) ensures Covers(ks, o) {
      var i :| 0 <= i < |xs| && xs[i].origin == o;
      assert xs[i] == Slot(o, Source(res, o));
      WhereMembers(xs, Exempt, xs[i]);
      WhereMembers(ks, Exempt, xs[i]);
      var j :| 0 <= j < |ks| && ks[j] == xs[i];
    }
  }

  // ---------------------------------------------------------------------
  // The loop as a fold over the replies received.

  datatype StreamState = StreamState(events: seq<Event>, seen: Seen, since: Option<string>)

  /** All replies flattened one after the other. */
  function AllSlots(rs: seq<SyncResponse>): seq<Slot>
    decreases |rs|
  {
    if rs == [] then [] else AllSlots(rs[..|rs| - 1]) + Schedule(rs[|rs| - 1])
  }

  /** The stream after the given replies, starting from no cursor: events in
      order, the seen-map, and the cursor for the next request. */
  function Run(seen: Seen, rs: seq<SyncResponse>): (r: StreamState)
    ensures rs == [] ==> r.since.None?
    ensures rs != [] ==> r.since == Some(rs[|rs| - 1].nextBatch)
    decreases |rs|
  {
    if rs == [] then StreamState([], seen, None)
    else
      var before := Run(seen, rs[..|rs| - 1]);
      var p := Poll(before.seen, rs[|rs| - 1]);
      StreamState(before.events + p.events, p.seen, Some(p.cursor))
  }

  /** Polling reply by reply is filtering all replies at once with one
      seen-map: the seen-map carries dedup across replies. */
  lemma {:induction false} RunIsFilter(seen: Seen, rs: seq<SyncResponse>)
    ensures Run(seen, rs).events == EventsOf(Filter(seen, AllSlots(rs)).kept)
    ensures Run(seen, rs).seen == Filter(seen, AllSlots(rs)).seen
    decreases |rs|
  {
    if rs != [] {
      var pre := rs[..|rs| - 1];
      RunIsFilter(seen, pre);
      FilterConcat(seen, AllSlots(pre), Schedule(rs[|rs| - 1]));
      EventsOfConcat(Filter(seen, AllSlots(pre)).kept, Filter(Filter(seen, AllSlots(pre)).seen, Schedule(rs[|rs| - 1])).kept);
    }
  }

  /** Across any number of replies, an id of a checked event is yielded once
      if it was not seen before the stream started, never if it was; and the
      seen-map ends up holding exactly the old ids plus every checked id
      received. */
  lemma StreamDedup(seen: set<string>, rs: seq<SyncResponse>, v: string)
    ensures var kept := Filter(Some(seen), AllSlots(rs)).kept;
      && Run(Some(seen), rs).events == EventsOf(kept)
      && CountId(kept, v) == (if v in CheckedIds(AllSlots(rs)) && v !in seen then 1 else 0)
    ensures Run(Some(seen), rs).seen == Some(seen + CheckedIds(AllSlots(rs)))
  {
    RunIsFilter(Some(seen), rs);
    KeptOnce(seen, AllSlots(rs), v);
    FilterSeen(Some(seen), AllSlots(rs));
  }

  lemma StepRun(seen: Seen, rs: seq<SyncResponse>, i: nat)
    requires i < |rs|
    ensures var before := Run(seen, rs[..i]);
      var p := Poll(before.seen, rs[i]);
      Run(seen, rs[..i + 1]) == StreamState(before.events + p.events, p.seen, Some(rs[i].nextBatch))
  {
    assert rs[..i + 1][..i] == rs[..i];
  }

  /** The cursor sent with the `k`-th request: none on the first, then the
      `next_batch` of the reply just before. */
  function CursorBefore(rs: seq<SyncResponse>, k: nat): Option<string>
    requires k <= |rs|
  {
    if k == 0 then None else Some(rs[k - 1].nextBatch)
  }

  /** The first `n` requests the loop issues. */
  function RequestsUpTo(timeout: int, rs: seq<SyncResponse>, n: nat): (reqs: seq<SyncRequest>)
    requires n <= |rs| + 1
    ensures |reqs| == n
    ensures forall k :: 0 <= k < n ==> reqs[k] == SyncRequest(timeout, CursorBefore(rs, k))
  {
    if n == 0 then [] else RequestsUpTo(timeout, rs, n - 1) + [SyncRequest(timeout, CursorBefore(rs, n - 1))]
  }

  /** The loop itself: issue a request with the current cursor, take the
      reply's `next_batch` as the new cursor before yielding anything, yield
      the reply's events, repeat. After the given replies the loop has
      issued one more request and waits for its reply. */
  method EventsLoop(seen: Seen, timeout: int, responses: seq<SyncResponse>)
    returns (requests: seq<SyncRequest>, events: seq<Event>, seen': Seen)
    ensures |requests| == |responses| + 1
    ensures requests[0].since.None?
    ensures forall i :: 0 <= i < |responses| ==> requests[i + 1].since == Some(responses[i].nextBatch)
    ensures forall i :: 0 <= i < |requests| ==> requests[i].timeout == timeout
    ensures events == Run(seen, responses).events && seen' == Run(seen, responses).seen
  {
    var since: Option<string> := None;
    requests := [];
    events := [];
    seen' := seen;
    var i := 0;
    while i < |responses|
      invariant 0 <= i <= |responses|
      invariant requests == RequestsUpTo(timeout, responses, i)
      invariant since == CursorBefore(responses, i)
      invariant events == Run(seen, responses[..i]).events && seen' == Run(seen, responses[..i]).seen
    {
      requests := requests + [SyncRequest(timeout, since)];
      var res := responses[i];
      since := Some(res.nextBatch);
      var p := Poll(seen', res);
      events := events + p.events;
      seen' := p.seen;
      StepRun(seen, responses, i);
      i := i + 1;
    }
    requests := requests + [SyncRequest(timeout, since)];
    assert requests == RequestsUpTo(timeout, responses, |responses| + 1);
    assert responses[..i] == responses;
  }
}

=== FILE: tx_ids.dfy ===
/** The transaction-id getter `MatrixClient.txID` (matrix-client.ts): the
    current time in milliseconds, a dash, and a per-client counter that each
    read post-increments. The clock is a parameter. */
module TxIds {

  function Digit(d: nat): (c: char)
    requires d < 10
    ensures '0' <= c <= '9' && (c as int) - ('0' as int) == d
  {
    ((('0' as int) + d) as char)
  }

  /** Decimal rendering of a natural number, as a template literal prints it. */
  function NatToString(n: nat): (s: string)
    ensures |s| >= 1
    ensures forall i :: 0 <= i < |s| ==> '0' <= s[i] <= '9'
    decreases n
  {
    if n < 10 then [Digit(n)] else NatToString(n / 10) + [Digit(n % 10)]
  }

  /** Decimal rendering of a (possibly negative) time stamp. */
  function IntToString(t: int): string {
    if t < 0 then "-" + NatToString(-t) else NatToString(t)
  }

  /** Reads a string of decimal digits. */
  function ParseNat(s: string): nat
    decreases |s|
  {
    if s == [] then 0
    else
      var d := (s[|s| - 1] as int) - ('0' as int);
      ParseNat(s[..|s| - 1]) * 10 + (if 0 <= d then d else 0)
  }

  lemma {:induction false} ParseNatToString(n: nat)
    ensures ParseNat(NatToString(n)) == n
    decreases n
  {
    if n >= 10 {
      var s := NatToString(n);
      assert s[..|s| - 1] == NatToString(n / 10);
      ParseNatToString(n / 10);
    }
  }

  /** The part of `s` after its last dash (all of `s` if there is none). */
  function AfterLastDash(s: string): string
    decreases |s|
  {
    if s == [] then []
    else if s[|s| - 1] == '-' then []
    else AfterLastDash(s[..|s| - 1]) + [s[|s| - 1]]
  }

  lemma {:induction false} AfterLastDashDigits(prefix: string, digits: string)
    requires forall i :: 0 <= i < |digits| ==> '0' <= digits[i] <= '9'
    ensures AfterLastDash(prefix + "-" + digits) == digits
    decreases |digits|
  {
    var s := prefix + "-" + digits;
    if digits == [] {
      assert s == prefix + "-";
    } else {
      assert s[..|s| - 1] == prefix + "-" + digits[..|digits| - 1];
      AfterLastDashDigits(prefix, digits[..|digits| - 1]);
      assert digits[..|digits| - 1] + [digits[|digits| - 1]] == digits;
    }
  }

  function TxId(now: int, count: nat): string {
    IntToString(now) + "-" + NatToString(count)
  }

  /** The counter a transaction id carries, read back from its text. */
  function CounterOf(id: string): nat {
    ParseNat(AfterLastDash(id))
  }

  datatype TxCounter = TxCounter(count: nat)

  datatype Read = Read(id: string, next: TxCounter)

  /** One read of `txID` at time `now`: the id carries the current count, and
      the counter moves on by exactly one. */
  function ReadTxId(c: TxCounter, now: int): (r: Read)
    ensures r.next.count == c.count + 1
    ensures CounterOf(r.id) == c.count
  {
    AfterLastDashDigits(IntToString(now), NatToString(c.count));
    ParseNatToString(c.count);
    Read(TxId(now, c.count), TxCounter(c.count + 1))
  }

  /** Successive reads of one client's `txID`, one per clock value. */
  function ReadAll(c: TxCounter, times: seq<int>): (ids: seq<string>)
    ensures |ids| == |times|
    decreases |times|
  {
    if times == [] then []
    else var r := ReadTxId(c, times[0]); [r.id] + ReadAll(r.next, times[1..])
  }

  lemma {:induction false} ReadAllCounters(c: TxCounter, times: seq<int>)
    ensures forall i :: 0 <= i < |times| ==> CounterOf(ReadAll(c, times)[i]) == c.count + i
    decreases |times|
  {
    if times != [] {
      ReadAllCounters(ReadTxId(c, times[0]).next, times[1..]);
    }
  }

  /** Ids read from one client are pairwise distinct, whatever the clock
      says (it may stand still or go backwards): their counters differ. */
  lemma ReadAllDistinct(c: TxCounter, times: seq<int>)
    ensures forall i, j :: 0 <= i < j < |times| ==> ReadAll(c, times)[i] != ReadAll(c, times)[j]
  {
    ReadAllCounters(c, times);
  }
}

=== FILE: wrappers.dfy ===
/** The optional-value datatype used for every field the Matrix wire format
    may leave `undefined`. */
module Wrappers {

  datatype Option<+T> = None | Some(value: T) {

    /** The value, or `default` when absent (the `x || default` idiom of the source). */
    function GetOr(default: T): T {
      match this
      case Some(v) => v
      case None => default
    }
  }
}
